=== FILE: README.md ===
# Frontend showcase: the logic behind the pages, in Dafny

The showcase is a Next.js site whose pages are mostly presentation. A few pieces of
sequential logic are buried in them, and this project models those pieces and proves
their properties:

- **The components gallery** (`Gallery`, `GalleryPage`):
  - the toolbar state held in the URL: query, category, comma-separated tags, sort and view, each with its default;
  - the facets over the fetched list: the tag universe and the per-category counts;
  - the three-way filter: category, case-insensitive text, and every selected tag;
  - the four sort orders, as the stable sort ECMA-262 requires of `Array.prototype.sort`;
  - the first-occurrence search highlight and the favourites toggle.
- **The query-parameter hook** (`QueryParams`). `get` answers `''` for a missing name, and `set` deletes the name rather than store an empty value. Both run on a `URLSearchParams` list with the semantics of section 6.2 of the WHATWG URL Standard.
- **The component search endpoint and the mock handlers** (`ComponentsApi`): a case-insensitive substring filter on names.
- **The onboarding wizard** (`Onboarding`):
  - `slugify`, with its 32-character cut;
  - the slug that follows the organisation name;
  - the step clamp with next/prev;
  - the slug, card-number and CVC rules.
- **The showcase landing page's tile filter** (`Showcase`) and **the side menu's longest-prefix selection** (`Nav`).
- **The accessibility page** (`Accessibility`): the roving-tabindex pills and the live-region cart announcement.

Supporting modules:
- `Strings`: ASCII `toLowerCase`, `includes`/`indexOf`, `split`/`join`, the ECMAScript `trim` set, `localeCompare` as code-point lexicographic order, and decimal rendering.
- `Seqs`: `filter` and the subsequence relation.
- `StableSort`: insertion sort, proved sorted, a permutation, and stable. It is also proved to be the only such arrangement.
- `Types`: the records of `src/data/types.ts`.
- `Seed`: the seed lists.
- `Wrappers`: `Option`.

Strings are `seq<char>`. Numbers in KPIs are reals. Every function is pure. The
things a page reads from the browser become parameters:
- the pathname;
- the search parameters;
- the e-mail format check, which is the form library's own.

## Model

| member | source | states |
|---|---|---|
| QueryParams.Lookup | src/hooks/useQueryParams.ts:11 | `get` answers `''` for a name that is absent, and otherwise the value of the first pair stored under that name |
| QueryParams.Delete | src/hooks/useQueryParams.ts:15 | after deleting, no pair carries the name, and every remaining pair was there before |
| QueryParams.Replace | src/hooks/useQueryParams.ts:16 | after `URLSearchParams.set` exactly one pair carries the name, and it reads back the new value |
| QueryParams.Set | src/hooks/useQueryParams.ts:13-16 | the hook's `set`: `get` reads back the value written, an empty value leaves the name absent, and the name is never stored twice |
| QueryParams.GetAbsent | src/hooks/useQueryParams.ts:11 | a name that is not present reads as `''` |
| QueryParams.SetOtherKey | src/hooks/useQueryParams.ts:13-16 | writing one name leaves what every other name reads unchanged |
| QueryParams.SetIdempotent | src/hooks/useQueryParams.ts:13-16 | setting the same value twice is the same as setting it once |
| QueryParams.SetKeepsOthers | src/hooks/useQueryParams.ts:14-16 | apart from the pairs under the written name, the list keeps the same pairs in the same order |
| Types.CategoryNamed | src/data/types.ts:15 | reading a category name gives the category with that name, and `None` exactly for strings that name no category |
| Types.NameRoundTrip | src/data/types.ts:15 | every category reads back from its name, and no category is named "All" or `''` |
| Gallery.ParseTags | src/app/showcase/components/page.tsx:68-71 | every parsed tag is non-empty, trimmed and free of commas; an absent or blank `tags` parameter gives no tags |
| Gallery.TagsRoundTrip | src/app/showcase/components/page.tsx:144 | tags written by `setTags` parse back to the same list when each is non-empty, trimmed and comma-free |
| Gallery.Parse | src/app/showcase/components/page.tsx:66-73 | the query is the `q` parameter; a non-empty `cat`, `sort` or `view` is taken as written; a blank `tags` gives no tags, and comma-separated well-formed tags are taken as written; tags are always well formed and category, sort and view never empty |
| Gallery.ParseTagsWellFormed | src/app/showcase/components/page.tsx:68-71 | when every comma-separated piece is already a well-formed tag, parsing keeps all of them in order |
| Gallery.ParseTagsPadded | src/app/showcase/components/page.tsx:68-71 | well-formed tags written with any white space around each of them parse back to the bare tags, in order: the pieces are trimmed, not dropped |
| Gallery.ParseTagsExample | src/app/showcase/components/page.tsx:68-71 | "a, b" parses to the two tags "a" and "b" |
| Strings.TrimCutsEdges | src/app/showcase/components/page.tsx:70 | `trim` returns a slice of its input, with only white space before and after that slice |
| Strings.TrimPadded | src/app/showcase/components/page.tsx:70 | white space around a trimmed, non-empty string is exactly what `trim` removes |
| Gallery.ParseDefaults | src/app/showcase/components/page.tsx:66-73 | field by field, whatever the other names hold: an absent or empty `cat` reads "All", `tags` no tags, `sort` "a-z", `view` "grid", `q` `''` |
| Gallery.WriteQueryThenParse | src/app/showcase/components/page.tsx:186 | typing in the search box changes the parsed query to the text typed and nothing else |
| Gallery.WriteCategoryThenParse | src/app/showcase/components/page.tsx:213 | a chosen category reads back as itself, "All" included, although "All" is stored as no parameter |
| Gallery.SetTagsThenParse | src/app/showcase/components/page.tsx:144 | well-formed tags read back as written and nothing else changes; the empty list removes the parameter |
| Gallery.CheckTagThenParse | src/app/showcase/components/page.tsx:229-231 | ticking a tag appends it to the selection; unticking removes it and keeps the other selected tags in order |
| Gallery.WriteSortThenParse | src/app/showcase/components/page.tsx:241 | choosing a sort changes the parsed sort and nothing else; an empty choice reads as "a-z" |
| Gallery.WriteViewThenParse | src/app/showcase/components/page.tsx:252 | choosing a view changes the parsed view and nothing else; an empty choice reads as "grid" |
| Gallery.AddTags | src/app/showcase/components/page.tsx:101 | adding an item's tags to the tag set keeps it duplicate-free and its members are the old ones plus the new tags |
| Gallery.TagSet | src/app/showcase/components/page.tsx:97-104 | the tag set has no duplicates and holds exactly the tags some item carries |
| Gallery.AllTags | src/app/showcase/components/page.tsx:106 | `allTags` is in strictly ascending order and holds exactly the tags some item carries |
| Gallery.Bump | src/app/showcase/components/page.tsx:102-103 | one item adds one to its own category's count and one to "All", and leaves the other counts alone |
| Gallery.Tally | src/app/showcase/components/page.tsx:98-104 | the counts have keys "All" plus the five categories; "All" is the list length and each category's count is its number of items |
| Gallery.CountsAddUp | src/app/showcase/components/page.tsx:96-109 | the five category counts add up to the "All" count |
| Gallery.FilterItems | src/app/showcase/components/page.tsx:112-120 | the filtered list keeps the input order, and an item is in it exactly when it passes the category, text and tag tests |
| Gallery.UnknownCategoryIsEmpty | src/app/showcase/components/page.tsx:113 | a `cat` that is neither "All" nor a category name lets no item through |
| Gallery.NoFilterKeepsAll | src/app/showcase/components/page.tsx:112-120 | with category "All", no query and no tags every item is kept, in order |
| Gallery.MoreTagsFewerItems | src/app/showcase/components/page.tsx:117-120 | selecting one more tag keeps a subsequence of the previous result, never a longer list |
| Gallery.SortKeyOf | src/app/showcase/components/page.tsx:122-135 | any sort value other than "z-a", "category" or "tags" takes the default name-ascending branch |
| Gallery.SortKeyRoundTrip | src/app/showcase/components/page.tsx:242-247 | each option of the sort menu selects its own comparator |
| Gallery.OrderIsPreorder | src/app/showcase/components/page.tsx:122-135 | each of the four comparators is total and transitive, so the stable sort is well defined |
| Gallery.Arrange | src/app/showcase/components/page.tsx:122-135 | the sorted list is a permutation of the filtered one. It is ordered by name ascending, name descending, (category, name), or tag count descending. Items the comparator ties keep their filtered order |
| Gallery.TagCountTiesKeepOrder | src/app/showcase/components/page.tsx:131-132 | under the tag-count order, the items with equal tag counts appear in filter order |
| Gallery.ArrangeIsUnique | src/app/showcase/components/page.tsx:122-135 | any ordered, stable rearrangement of the filtered items is the one shown |
| Gallery.RenderMode | src/app/showcase/components/page.tsx:299 | the page renders a grid exactly for view "grid"; every other value renders a list |
| Gallery.Derive | src/app/showcase/components/page.tsx:96-136 | the shown items are exactly the matching ones, in the chosen stable order. The tag list is the sorted, duplicate-free union of the whole list's tags, the counts are its tally, and the mode is a grid exactly when the view is "grid" |
| Gallery.FacetsIgnoreViewState | src/app/showcase/components/page.tsx:96-109 | the facets depend on the item list alone, not on query, category, tags or sort |
| Gallery.Highlight | src/app/showcase/components/page.tsx:145-151 | the pieces put back together give the text. A match is marked exactly when the query is non-empty and occurs ignoring case. The marked part has the query's length and equals it ignoring case. No earlier position matches |
| Gallery.ToggleFav | src/app/showcase/components/page.tsx:81-87 | the id's membership flips and no other id's changes. A duplicate-free list stays duplicate-free. A removal keeps the order; an addition appends |
| Gallery.ToggleFavTwice | src/app/showcase/components/page.tsx:83 | toggling twice restores membership, and restores the list itself when the id was not a favourite |
| ComponentsApi.Search | src/app/api/components/route.ts:5-8 | an empty query returns the demos unchanged. Otherwise the result is an order-preserving subsequence of exactly the demos whose lower-cased name contains the lower-cased query |
| ComponentsApi.EmptyQueryMatchesAll | src/app/api/components/route.ts:7 | the empty query matches every name, so filtering with it changes nothing |
| ComponentsApi.RouteGet | src/app/api/components/route.ts:3-10 | a missing or empty `q` returns all demos; otherwise exactly the demos whose lower-cased name contains the lower-cased query, in seed order |
| ComponentsApi.Handle | src/mocks/handlers.ts:6-17 | for a GET request: projects and KPIs come back as their seed lists, components as a subsequence of the demos, and any other path is unhandled |
| ComponentsApi.MockMatchesRoute | src/mocks/handlers.ts:8-15 | the mock answers every component search exactly as the route handler does |
| ComponentsApi.SearchTagWordFindsNothing | src/app/api/components/route.ts:7 | the tag word "sortable" finds no demo by name, although the Data Table demo carries it as a tag |
| GalleryPage.DeriveFetched | src/app/showcase/components/page.tsx:90-120 | for any demo list, an item is shown exactly when its name contains the query and it passes the page's filter; the tag list and every count are those of the name-filtered response |
| GalleryPage.ViewAsWritten | src/app/showcase/components/page.tsx:90-120 | as written, an item is shown exactly when it is a seed demo whose name contains the query and it passes the page's filter; the tag list, the "All" count and each category's count are those of the name-filtered response |
| GalleryPage.View | src/app/showcase/components/page.tsx:96-136 | derived from the full list, the shown items are the matching demos and the facets are those of the whole seed |
| GalleryPage.AsWrittenShowsSubset | src/app/showcase/components/page.tsx:90-120 | whatever the page shows as written, the full-list derivation shows too |
| GalleryPage.SortableSearchAsWritten | src/app/showcase/components/page.tsx:92 | as written, `?q=sortable` shows nothing and drops the "All" count to 0 |
| GalleryPage.SortableSearchCorrected | src/app/showcase/components/page.tsx:114-116 | from the full list, `?q=sortable` shows the Data Table demo and the "All" count stays 3 |
| Onboarding.Collapse | src/app/showcase/forms/page.tsx:86 | replacing runs outside `[a-z0-9]` leaves only `[a-z0-9-]` and never two dashes in a row |
| Onboarding.CollapseKeepsSlugChars | src/app/showcase/forms/page.tsx:86 | the replacement keeps every `[a-z0-9]` character of its input, in order, and adds none |
| Onboarding.CollapseRun | src/app/showcase/forms/page.tsx:86 | a maximal run of characters outside `[a-z0-9]` yields one dash, or none when its dash was already emitted |
| Onboarding.CollapseWordRun | src/app/showcase/forms/page.tsx:86 | a word of `[a-z0-9]`, a maximal run outside it and the rest become the word, one dash, and the collapsed rest |
| Onboarding.CollapseWord | src/app/showcase/forms/page.tsx:86 | a word of `[a-z0-9]` alone is left unchanged |
| Onboarding.CollapseExample | src/app/showcase/forms/page.tsx:86 | "a.b" becomes "a-b" |
| Onboarding.StripEdgesKeepsSlugChars | src/app/showcase/forms/page.tsx:87 | stripping the edge dashes keeps every `[a-z0-9]` character |
| Onboarding.StripEdges | src/app/showcase/forms/page.tsx:87 | the result is a slice of the input with only dashes cut off before and after it, so inner dashes stay. It neither starts nor ends with a dash, and a slug without edge dashes is unchanged |
| Onboarding.Slugify | src/app/showcase/forms/page.tsx:83-89 | an unset name gives `''`. The slug's letters and digits are a prefix of the lower-cased name's letters and digits, in order, and all of them when the slug is under 32 characters. The slug is at most 32 characters, all in `[a-z0-9-]`, with no leading dash and no double dash. Only a cut at exactly 32 can leave a trailing dash |
| Onboarding.SlugifyMeetsRule | src/app/showcase/forms/page.tsx:218 | every generated slug of two or more characters passes the workspace-URL rule |
| Onboarding.SlugifyFixedPoint | src/app/showcase/forms/page.tsx:83-89 | a clean slug is left unchanged |
| Onboarding.SlugifyTwice | src/app/showcase/forms/page.tsx:83-89 | slugifying a slug again changes it exactly when the first pass left a trailing dash |
| Onboarding.TruncationLeavesDash | src/app/showcase/forms/page.tsx:86-88 | 31 slug characters, a space and one more character slugify to the 31 characters and a trailing dash |
| Onboarding.TruncationExample | src/app/showcase/forms/page.tsx:86-88 | thirty-one `a`s, a space and `b` slugify to the `a`s and a dash |
| Onboarding.ClampStep | src/app/showcase/forms/page.tsx:134 | the clamp is the identity on the steps 0 to 2, sends negatives to 0 and anything above 2 to 2 |
| Onboarding.Next | src/app/showcase/forms/page.tsx:136-140 | next advances by exactly one step exactly when the step is not the last and its fields pass their rules. Leaving step 0 implies a valid slug and organisation name; leaving step 1 implies a valid card number and CVC |
| Onboarding.Prev | src/app/showcase/forms/page.tsx:142 | prev goes back one step and stays at step 0 |
| Onboarding.PrevAfterNext | src/app/showcase/forms/page.tsx:136-142 | going back after a successful next returns to the step you came from |
| Onboarding.ClampStepIdempotent | src/app/showcase/forms/page.tsx:134 | clamping twice is clamping once |
| Onboarding.OrgChangeAsWritten | src/app/showcase/forms/page.tsx:107-109 | as written: the name is stored, a non-empty slug is kept, an empty one is generated from the name, and nothing else changes |
| Onboarding.SlugStopsFollowingOrg | src/app/showcase/forms/page.tsx:107-109 | as written, typing "A" then "Ac" leaves the slug "a", which fails the workspace-URL rule, although "Ac" slugifies to "ac" |
| Onboarding.OrgChange | src/app/showcase/forms/page.tsx:106-109 | corrected: the slug follows the name while it is the name's own slug or empty; an edited slug is kept |
| Onboarding.SlugFollowsOrg | src/app/showcase/forms/page.tsx:106-109 | however the name is typed, keystroke by keystroke, an unedited slug ends as the slug of the final name |
| Onboarding.SlugFollowsOrgExample | src/app/showcase/forms/page.tsx:106-109 | with the corrected rule, typing "A" then "Ac" gives the slug "ac" |
| Showcase.FilterTiles | src/app/showcase/page.tsx:104-112 | the shown tiles keep their listed order. A tile is shown exactly when its category matches and, unless the query trims to nothing, its lower-cased text contains the lower-cased untrimmed query |
| Showcase.SegmentCoversCategories | src/app/showcase/page.tsx:97 | the segment offers every tile category's label, and every label but "All" names a category |
| Showcase.BlankQueryIsNoQuery | src/app/showcase/page.tsx:106-108 | a query of white space only filters exactly like the empty query |
| Showcase.BlankQueryAllShowsEverything | src/app/showcase/page.tsx:105-111 | with "All" and a blank query every tile is shown in order |
| Showcase.CategoryNarrows | src/app/showcase/page.tsx:105 | choosing a category keeps a subsequence of the "All" result, all in that category |
| Showcase.QueryIgnoresCase | src/app/showcase/page.tsx:110 | a query and its lower-cased form show the same tiles |
| Nav.FindPrefix | src/app/showcase/layout.tsx:27 | `find` answers the first key the path starts with, or nothing when no key is a prefix |
| Nav.Select | src/app/showcase/layout.tsx:23-27 | for any key list: the result is a key or "/showcase". No pathname, or no matching key, gives "/showcase". Otherwise the result is a prefix of the path at least as long as every matching key |
| Nav.Selected | src/app/showcase/layout.tsx:9-27 | the selected key is a menu key. A pathname not known yet, or a path outside "/showcase", selects "/showcase". For a path under "/showcase" it is the longest key the path starts with |
| Nav.FormsSectionSelected | src/app/showcase/layout.tsx:23-27 | every path starting with "/showcase/forms" selects "/showcase/forms" |
| Nav.NestedRouteSelectsSection | src/app/showcase/layout.tsx:22-27 | a nested route such as "/showcase/forms/step-2" highlights its section, not "/showcase" |
| Nav.RawPrefixSelectsSection | src/app/showcase/layout.tsx:26-27 | matching is by raw string prefix: "/showcase/formsx" also selects "/showcase/forms" |
| Nav.OutsideFallsBack | src/app/showcase/layout.tsx:27 | every path that does not start with "/showcase" selects "/showcase" |
| Nav.RootFallsBack | src/app/showcase/layout.tsx:27 | the site root "/" selects "/showcase" |
| Accessibility.KeyOf | src/app/showcase/accessibility/page.tsx:197-211 | each of the four handled key names maps to its own key and only that name does; every other name is passed through unhandled |
| Accessibility.KeyDown | src/app/showcase/accessibility/page.tsx:198-211 | the new index stays among the pills. ArrowRight moves one right and wraps from the last pill to 0. ArrowLeft moves one left and wraps from 0 to the last. Home gives 0, End the last, and any other key leaves the index alone |
| Accessibility.LeftUndoesRight | src/app/showcase/accessibility/page.tsx:200-203 | ArrowLeft after ArrowRight returns to the starting pill |
| Accessibility.RightUndoesLeft | src/app/showcase/accessibility/page.tsx:200-203 | ArrowRight after ArrowLeft returns to the starting pill |
| Accessibility.RightPressesRotate | src/app/showcase/accessibility/page.tsx:200 | `m` presses of ArrowRight move the focus `m` places round the row |
| Accessibility.FullLap | src/app/showcase/accessibility/page.tsx:200 | as many presses of ArrowRight as there are pills bring the focus back where it started |
| Accessibility.Render | src/app/showcase/accessibility/page.tsx:194-195 | every pill has tab index 0 or -1, and a pill is in the tab order exactly when it is selected |
| Accessibility.ExactlyOneTabStop | src/app/showcase/accessibility/page.tsx:194-195 | exactly one pill, the current one, has tab index 0 and is selected |
| Accessibility.KeyKeepsOneTabStop | src/app/showcase/accessibility/page.tsx:194-211 | after any key press the row still has exactly one tab stop |
| Accessibility.Add | src/app/showcase/accessibility/page.tsx:276-280 | adding to the cart raises the count by one and announces the new total |
| Accessibility.AnnouncementReadsBack | src/app/showcase/accessibility/page.tsx:280 | the announcement is the fixed opening, digits that spell the count with no leading zero, and "item" exactly when the count is one ("items" otherwise) |
| Accessibility.AddTimesCounts | src/app/showcase/accessibility/page.tsx:276-278 | after `m` presses of "Add to cart" from an empty cart the count is `m` |
| Accessibility.FirstAddSaysItem | src/app/showcase/accessibility/page.tsx:280 | the first press announces "Added to cart. 1 item total." |
| StableSort.Sort | src/app/showcase/components/page.tsx:124-134 | the stable sort of `Array.prototype.sort`: a permutation, ordered by the comparator, with ties kept in input order |
| StableSort.SortIsTheStableSort | src/app/showcase/components/page.tsx:124-134 | any ordered arrangement that keeps every tie group in input order equals the sort |

## Left out

- Fetching: React Query, its caching, refetch and loading/error states. The page's fetch is modelled by feeding the endpoint's answer to the derivation (`GalleryPage.ViewAsWritten`).
- `ComponentsApi.Handle`: the request method is not modelled. The mock handlers are registered with `http.get`, so they answer GET requests only, and the model treats every request as a GET.
- `router.replace` and the percent-encoding of `URLSearchParams.toString()`. The parameters are modelled as the name/value list itself.
- Favourites persistence: the `localStorage` read/write and `JSON.parse`/`stringify`. `Gallery.ToggleFav` models the list update only.
- Unicode case mapping and locale collation. `toLowerCase` is modelled on ASCII letters only and `localeCompare` as code-point order. With full Unicode lower-casing, a lower-cased text can change length. `Gallery.Highlight`'s index arithmetic relies on lengths being kept, and `slugify` on characters such as 'İ' could differ.
- `Onboarding.StepValid`: the e-mail format check belongs to the form library and is a parameter (`isEmail`). The expiry field is only required, as in the source. The `len: 3` rule measures code points (the validator collapses each surrogate pair before counting), which is what the model counts.
- The asynchronous part of `next` and `submit`: validation promises, the submit timer and the success screen. `Onboarding.Next` models the outcome of validation only.
- `highlightMaybe` (src/app/showcase/components/page.tsx:448-454) is the same code as `highlight`, so `Gallery.Highlight` stands for both.
- Rendering: JSX, the antd components, drawers, previews, usage snippets, skip links, the modal and the accessible form/table demos. Focus moves through DOM refs and is left out; `RovingPills` is modelled as its index alone.
- The theming, dashboards and motion pages, the charts, the marketing pages and the presentational primitives. They are CSS-variable plumbing, floating-point sample data and animation.
- `Accessibility.KeyDown`: the handler sits on a rendered pill, so `i < n` is required. With no pills there is no handler to call.

## Findings

| source | as written | input that shows it | evidently intended | confidence | as-written member | corrected member |
|---|---|---|---|---|---|---|
| src/app/showcase/components/page.tsx:90-120 | the page fetches `/api/components?q=<q>`, which filters by name only, and derives the shown list and the facets from that response | `?q=sortable`: no demo name contains "sortable", so nothing is shown and the "All" count drops to 0 | the text filter also matches category and tags (line 116), and the facets describe the whole catalogue, so both should be derived from the full list | medium; not executed | GalleryPage.SortableSearchAsWritten | GalleryPage.SortableSearchCorrected |
| src/app/showcase/forms/page.tsx:107-109 | `onOrgChange` keeps any non-empty slug, including the one it generated itself on the first keystroke | typing "A" then "Ac" into a fresh form: the slug stays "a", which fails the 2-32 character rule | the slug is "auto-generated from org (editable)" (line 106): it follows the name until the user edits it | medium; not executed | Onboarding.SlugStopsFollowingOrg | Onboarding.SlugFollowsOrg |

=== FILE: accessibility.dfy ===
/**
 * The two stateful widgets of the accessibility page
 * (src/app/showcase/accessibility/page.tsx):
 *  - `RovingPills`, a row of option buttons of which exactly one is in the
 *    tab order; the arrow keys move the focus round the row, wrapping at both
 *    ends, and Home and End jump to the ends;
 *  - `LiveRegionDemo`, a cart counter whose polite live region announces the
 *    new total after every "Add to cart".
 */
module Accessibility {

  import opened Strings

  // ---------------------------------------------------------------------
  // Roving tabindex
  // ---------------------------------------------------------------------

  /** The `e.key` values the pills react to; every other key is `Other`. */
  datatype Key = ArrowRight | ArrowLeft | Home | End | Other(name: string)

  /** `e.key` as the handler compares it. */
  function KeyOf(name: string): (k: Key)
    ensures k.Other? <==> name !in {"ArrowRight", "ArrowLeft", "Home", "End"}
    ensures k.Other? ==> k.name == name
    ensures k == ArrowRight <==> name == "ArrowRight"
    ensures k == ArrowLeft <==> name == "ArrowLeft"
    ensures k == Home <==> name == "Home"
    ensures k == End <==> name == "End"
  {
    if name == "ArrowRight" then ArrowRight
    else if name == "ArrowLeft" then ArrowLeft
    else if name == "Home" then Home
    else if name == "End" then End
    else Other(name)
  }

  /**
   * The index after a key press on pill `i` of `n`. The handler only exists
   * on a rendered pill, so `i < n`. Both arrows use `%` on non-negative
   * operands, where JavaScript and Dafny agree.
   */
  function KeyDown(i: nat, n: nat, key: Key): (r: nat)
    requires i < n
    ensures r < n
    ensures key == ArrowRight ==> r == (if i == n - 1 then 0 else i + 1)
    ensures key == ArrowLeft ==> r == (if i == 0 then n - 1 else i - 1)
    ensures key == Home ==> r == 0
    ensures key == End ==> r == n - 1
    ensures key.Other? ==> r == i
  {
    ModOfRange(i + 1, n);
    ModOfRange(i - 1 + n, n);
    match key
    case ArrowRight => (i + 1) % n
    case ArrowLeft => (i - 1 + n) % n
    case Home => 0
    case End => n - 1
    case Other(_) => i
  }

  /** ArrowLeft undoes ArrowRight. */
  lemma LeftUndoesRight(i: nat, n: nat)
    requires i < n
    ensures KeyDown(KeyDown(i, n, ArrowRight), n, ArrowLeft) == i
  {
  }

  /** ArrowRight undoes ArrowLeft. */
  lemma RightUndoesLeft(i: nat, n: nat)
    requires i < n
    ensures KeyDown(KeyDown(i, n, ArrowLeft), n, ArrowRight) == i
  {
  }

  /** The index after `m` presses of the same key, starting at `i`. */
  function Presses(i: nat, n: nat, key: Key, m: nat): (r: nat)
    requires i < n
    ensures r < n
  {
    if m == 0 then i else KeyDown(Presses(i, n, key, m - 1), n, key)
  }

  // Euclidean division facts, each from one linear witness.

  lemma MulSign(d: int, n: int)
    requires n > 0
    ensures d >= 1 ==> d * n >= n
    ensures d <= -1 ==> d * n <= -n
  {
  }

  /** Quotient and remainder are the only pair with `a == q * n + r` and `0 <= r < n`. */
  lemma DivModUnique(a: int, n: int, q: int, r: int)
    requires n > 0 && 0 <= r < n && a == q * n + r
    ensures a / n == q && a % n == r
  {
    var q', r' := a / n, a % n;
    assert a == q' * n + r';
    assert (q - q') * n == q * n - q' * n;
    MulSign(q - q', n);
  }

  lemma ModOfRange(a: int, n: int)
    requires n > 0 && 0 <= a < 2 * n
    ensures a % n == (if a < n then a else a - n)
  {
    if a < n {
      DivModUnique(a, n, 0, a);
    } else {
      DivModUnique(a, n, 1, a - n);
    }
  }

  lemma ModSucc(x: nat, n: nat)
    requires n > 0
    ensures (x + 1) % n == (x % n + 1) % n
  {
    var q, p := x / n, x % n;
    DivModUnique(x, n, q, p);
    ModOfRange(p + 1, n);
    if p + 1 < n {
      DivModUnique(x + 1, n, q, p + 1);
    } else {
      assert x + 1 == (q + 1) * n + 0;
      DivModUnique(x + 1, n, q + 1, 0);
    }
  }

  /** `m` presses of ArrowRight advance the focus by `m` places round the row. */
  lemma {:induction false} RightPressesRotate(i: nat, n: nat, m: nat)
    requires i < n
    ensures Presses(i, n, ArrowRight, m) == (i + m) % n
  {
    if m == 0 {
      ModOfRange(i, n);
    } else {
      RightPressesRotate(i, n, m - 1);
      ModSucc(i + m - 1, n);
    }
  }

  /** A full lap of ArrowRight brings the focus back where it started. */
  lemma FullLap(i: nat, n: nat)
    requires i < n
    ensures Presses(i, n, ArrowRight, n) == i
  {
    RightPressesRotate(i, n, n);
    ModOfRange(i + n, n);
  }

  /** What a pill renders that matters to assistive technology. */
  datatype PillView = PillView(tabIndex: int, selected: bool)

  /** `tabIndex` and `aria-selected` of each of `n` pills when `index` is current. */
  function Render(n: nat, index: nat): (r: seq<PillView>)
    ensures |r| == n
    ensures forall i :: 0 <= i < n ==> r[i].tabIndex == 0 || r[i].tabIndex == -1
    ensures forall i :: 0 <= i < n ==> (r[i].tabIndex == 0 <==> r[i].selected)
  {
    seq(n, i => if i == index then PillView(0, true) else PillView(-1, false))
  }

  /** The number of pills in the tab order. */
  function TabStops(r: seq<PillView>): nat {
    if |r| == 0 then 0 else (if r[0].tabIndex == 0 then 1 else 0) + TabStops(r[1..])
  }

  lemma {:induction false} TabStopsSplit(a: seq<PillView>, b: seq<PillView>)
    ensures TabStops(a + b) == TabStops(a) + TabStops(b)
  {
    if |a| == 0 {
      assert a + b == b;
    } else {
      var ab := a + b;
      assert ab[0] == a[0] && ab[1..] == a[1..] + b;
      TabStopsSplit(a[1..], b);
      assert TabStops(ab) == (if a[0].tabIndex == 0 then 1 else 0) + TabStops(ab[1..]);
    }
  }

  lemma {:induction false} NoTabStops(r: seq<PillView>)
    requires forall i :: 0 <= i < |r| ==> r[i].tabIndex != 0
    ensures TabStops(r) == 0
  {
    if |r| > 0 {
      NoTabStops(r[1..]);
    }
  }

  /** Exactly one pill, the current one, is in the tab order and selected. */
  lemma ExactlyOneTabStop(n: nat, index: nat)
    requires index < n
    ensures TabStops(Render(n, index)) == 1
    ensures Render(n, index)[index] == PillView(0, true)
    ensures forall i :: 0 <= i < n && i != index ==> Render(n, index)[i] == PillView(-1, false)
  {
    var r := Render(n, index);
    assert r == r[..index] + [r[index]] + r[index + 1..];
    TabStopsSplit(r[..index] + [r[index]], r[index + 1..]);
    TabStopsSplit(r[..index], [r[index]]);
    NoTabStops(r[..index]);
    NoTabStops(r[index + 1..]);
  }

  /** After any key press the row still has exactly one tab stop, at the new index. */
  lemma KeyKeepsOneTabStop(i: nat, n: nat, key: Key)
    requires i < n
    ensures TabStops(Render(n, KeyDown(i, n, key))) == 1
  {
    ExactlyOneTabStop(n, KeyDown(i, n, key));
  }

  // ---------------------------------------------------------------------
  // Live region
  // ---------------------------------------------------------------------

  /** The demo's state: the cart count and the live region's text. */
  datatype Cart = Cart(count: nat, message: string)

  const Empty: Cart := Cart(0, "")

  /** "item" for one, "items" otherwise. */
  function Noun(n: nat): string {
    if n == 1 then "item" else "items"
  }

  /** The announcement for a cart of `n`. */
  function Announcement(n: nat): string {
    "Added to cart. " + NatToString(n) + " " + Noun(n) + " total."
  }

  /** `add`: the count goes up by one and the region announces the new total. */
  function Add(c: Cart): (r: Cart)
    ensures r.count == c.count + 1
    ensures r.message == Announcement(r.count)
  {
    var next := c.count + 1;
    Cart(next, Announcement(next))
  }

  /**
   * An announcement reads back: it is the fixed opening, a run of digits that
   * spells the count, and "item" exactly when the count is one.
   */
  lemma AnnouncementReadsBack(n: nat)
    ensures exists digits: string, noun: string ::
              && Announcement(n) == "Added to cart. " + digits + " " + noun + " total."
              && |digits| >= 1 && (forall k :: 0 <= k < |digits| ==> IsDigit(digits[k]))
              && (|digits| == 1 || digits[0] != '0')
              && ParseDigits(digits) == n
              && (noun == "item" <==> n == 1)
              && (noun == "items" <==> n != 1)
  {
    NatToStringRoundTrip(n);
    var digits, noun := NatToString(n), Noun(n);
    assert Announcement(n) == "Added to cart. " + digits + " " + noun + " total.";
  }

  /** After `m` presses of "Add to cart" the count is `m`. */
  function AddTimes(c: Cart, m: nat): (r: Cart)
    ensures m > 0 ==> r.message == Announcement(r.count)
  {
    if m == 0 then c else Add(AddTimes(c, m - 1))
  }

  lemma {:induction false} AddTimesCounts(m: nat)
    ensures AddTimes(Empty, m).count == m
  {
    if m > 0 {
      AddTimesCounts(m - 1);
    }
  }

  /** The first press announces "1 item"; every later one says "items". */
  lemma FirstAddSaysItem()
    ensures Add(Empty).message == "Added to cart. 1 item total."
  {
  }
}

=== FILE: components_api.dfy ===
/**
 * The component search endpoint (src/app/api/components/route.ts) and the
 * mock service worker handlers that stand in for the API in the browser
 * (src/mocks/handlers.ts). Both answer `/api/components?q=` with the seed
 * demos whose lower-cased name contains the lower-cased query.
 */
module ComponentsApi {

  import opened Strings
  import opened Seqs
  import opened Types
  import opened QueryParams
  import Seed

  predicate NameContains(q: string, it: Item) {
    Contains(Lower(it.name), Lower(q))
  }

  function NameFilter(q: string): Item -> bool {
    (it: Item) => NameContains(q, it)
  }

  /**
   * The shared filter: an empty query returns the list itself, any other
   * query keeps exactly the items whose name contains it, in list order.
   * Category and tags play no part.
   */
  function Search(demos: seq<Item>, q: string): (r: seq<Item>)
    ensures q == "" ==> r == demos
    ensures IsSubseq(r, demos)
    ensures forall k :: 0 <= k < |r| ==> r[k] in demos && NameContains(q, r[k])
    ensures forall k :: 0 <= k < |demos| && NameContains(q, demos[k]) ==> demos[k] in r
  {
    var lq := Lower(q);
    if lq == [] then
      SubseqRefl(demos);
      demos
    else
      FilterIsSubseq(demos, NameFilter(q));
      Filter(demos, NameFilter(q))
  }

  /** An empty query matches every name, so the filtered and unfiltered branches agree. */
  lemma EmptyQueryMatchesAll(demos: seq<Item>)
    ensures Filter(demos, NameFilter("")) == demos
  {
    forall it: Item ensures NameContains("", it) {
      ContainsEmpty(Lower(it.name));
    }
    FilterAll(demos, NameFilter(""));
  }

  /**
   * `GET /api/components`: `q` is read with `|| ''`, so a missing or empty `q`
   * means no filter; otherwise exactly the seed demos whose name contains it,
   * in seed order.
   */
  function RouteGet(p: Params): (r: seq<Item>)
    ensures !Has(p, "q") ==> r == Seed.ComponentDemos
    ensures Lookup(p, "q") == "" ==> r == Seed.ComponentDemos
    ensures IsSubseq(r, Seed.ComponentDemos)
    ensures forall k :: 0 <= k < |r| ==> NameContains(Lookup(p, "q"), r[k])
    ensures forall it :: it in Seed.ComponentDemos && NameContains(Lookup(p, "q"), it) ==> it in r
  {
    Search(Seed.ComponentDemos, Lookup(p, "q"))
  }

  /** What a mock handler answers with. */
  datatype Response =
    | ProjectList(projects: seq<Project>)
    | ComponentList(items: seq<Item>)
    | KpiList(kpis: seq<Kpi>)
    | Unhandled

  /** The three handlers, matched on the request path; other paths fall through. */
  function Handle(path: string, p: Params): (r: Response)
    ensures path == "/api/projects" ==> r == ProjectList(Seed.Projects)
    ensures path == "/api/kpis" ==> r == KpiList(Seed.Kpis)
    ensures path == "/api/components" ==> r.ComponentList? && IsSubseq(r.items, Seed.ComponentDemos)
    ensures path != "/api/projects" && path != "/api/components" && path != "/api/kpis" ==> r == Unhandled
  {
    if path == "/api/projects" then ProjectList(Seed.Projects)
    else if path == "/api/components" then ComponentList(Search(Seed.ComponentDemos, Lookup(p, "q")))
    else if path == "/api/kpis" then KpiList(Seed.Kpis)
    else Unhandled
  }

  /** The mock and the route answer every component search identically. */
  lemma MockMatchesRoute(p: Params)
    ensures Handle("/api/components", p) == ComponentList(RouteGet(p))
  {
  }

  /**
   * The name-only search finds nothing for "sortable", although it is one of
   * the Data Table demo's tags.
   */
  lemma SearchTagWordFindsNothing()
    ensures Search(Seed.ComponentDemos, "sortable") == []
    ensures "sortable" in Seed.ComponentDemos[1].tags
  {
    var d := Seed.ComponentDemos;
    var q := "sortable";
    assert Lower(q) == q;
    forall k | 0 <= k < 3 ensures !NameContains(q, d[k]) {
      var name := Lower(d[k].name);
      assert forall j :: 0 <= j && j + 8 <= |name| ==> name[j] == LowerChar(d[k].name[j]);
      NotContainsByFirstChar(name, q);
    }
  }
}

=== FILE: gallery.dfy ===
/**
 * The components gallery (src/app/showcase/components/page.tsx): the view
 * state held in the URL, the facets, the three-way filter, the four sort
 * orders, the search highlight and the favourites toggle.
 *
 * The view state is read from the search parameters on every render and
 * written back one field at a time; the derived view is a pure function of
 * the fetched item list and that state.
 */
module Gallery {

  import opened Wrappers
  import opened Strings
  import opened Seqs
  import opened StableSort
  import opened Types
  import opened QueryParams

  // ---------------------------------------------------------------------
  // View state in the URL
  // ---------------------------------------------------------------------

  /** The toolbar state as the page reads it: raw strings, defaults applied. */
  datatype ViewState = ViewState(q: string, cat: string, tags: seq<string>, sort: string, view: string)

  /** A tag that survives parsing: non-empty, trimmed and free of commas. */
  predicate TagOk(t: string) {
    |t| > 0 && Trimmed(t) && ',' !in t
  }

  predicate AllTagsOk(ts: seq<string>) {
    forall k :: 0 <= k < |ts| ==> TagOk(ts[k])
  }

  function NonEmpty(): string -> bool {
    (t: string) => t != ""
  }

  /** Each comma-separated piece of `raw`, trimmed. */
  function TrimmedPieces(raw: string): (pieces: seq<string>)
    ensures forall k :: 0 <= k < |pieces| ==> Trimmed(pieces[k]) && ',' !in pieces[k]
  {
    var parts := Split(raw, ',');
    seq(|parts|, i requires 0 <= i < |parts| => Trim(parts[i]))
  }

  /** The `tags` parameter: split on commas, trim, drop the empty pieces. */
  function ParseTags(raw: string): (ts: seq<string>)
    ensures AllTagsOk(ts)
    ensures Blank(raw) ==> ts == []
  {
    var pieces := TrimmedPieces(raw);
    assert Blank(raw) ==> pieces == [""] by {
      if Blank(raw) {
        assert ',' !in raw;
      }
    }
    Filter(pieces, NonEmpty())
  }

  /** When every comma-separated piece is already a well-formed tag, parsing keeps them all. */
  lemma ParseTagsWellFormed(raw: string)
    ensures AllTagsOk(Split(raw, ',')) ==> ParseTags(raw) == Split(raw, ',')
  {
    var parts := Split(raw, ',');
    if AllTagsOk(parts) {
      var pieces := TrimmedPieces(raw);
      assert pieces == parts;
      FilterAll(parts, NonEmpty());
    }
  }

  /** What `setTags` writes: the tags joined with commas, or `''` for none. */
  function TagsParam(ts: seq<string>): string {
    if |ts| > 0 then Join(ts, ",") else ""
  }

  /** Parsing gives back exactly the tags that were written. */
  lemma TagsRoundTrip(ts: seq<string>)
    requires AllTagsOk(ts)
    ensures ParseTags(TagsParam(ts)) == ts
  {
    if |ts| > 0 {
      SplitJoin(ts, ',');
      assert [','] == ",";
      var pieces := TrimmedPieces(Join(ts, ","));
      assert pieces == ts;
      FilterAll(ts, NonEmpty());
    }
  }

  /** Each tag with white space of its own on either side. */
  function Padded(ts: seq<string>, l: seq<string>, r: seq<string>): (ps: seq<string>)
    requires |l| == |ts| && |r| == |ts|
    ensures |ps| == |ts|
  {
    seq(|ts|, k requires 0 <= k < |ts| => l[k] + ts[k] + r[k])
  }

  /** Parsing trims: tags written with white space around them parse back to the bare tags. */
  lemma ParseTagsPadded(ts: seq<string>, l: seq<string>, r: seq<string>)
    requires AllTagsOk(ts)
    requires |l| == |ts| && |r| == |ts|
    requires forall k :: 0 <= k < |ts| ==> Blank(l[k]) && Blank(r[k])
    ensures ParseTags(Join(Padded(ts, l, r), ",")) == ts
  {
    var ps := Padded(ts, l, r);
    if |ts| == 0 {
      assert Blank(Join(ps, ","));
    } else {
      forall k | 0 <= k < |ps| ensures ',' !in ps[k] {
        assert ',' !in l[k] && ',' !in r[k] by {
          assert forall i :: 0 <= i < |l[k]| ==> IsSpace(l[k][i]);
          assert forall i :: 0 <= i < |r[k]| ==> IsSpace(r[k][i]);
        }
        assert ps[k] == l[k] + ts[k] + r[k];
      }
      SplitJoin(ps, ',');
      assert [','] == ",";
      var pieces := TrimmedPieces(Join(ps, ","));
      forall k | 0 <= k < |ts| ensures pieces[k] == ts[k] {
        TrimPadded(l[k], ts[k], r[k]);
      }
      assert pieces == ts;
      FilterAll(ts, NonEmpty());
    }
  }

  lemma PaddedExample()
    ensures Padded(["a", "b"], ["", " "], ["", ""]) == ["a", " b"]
  {
    var ps := Padded(["a", "b"], ["", " "], ["", ""]);
    assert ps[0] == "" + "a" + "" == "a";
    assert ps[1] == " " + "b" + "" == " b";
  }

  lemma JoinExample()
    ensures Join(["a", " b"], ",") == "a, b"
  {
  }

  /** "a, b" parses to the two tags "a" and "b". */
  lemma ParseTagsExample()
    ensures ParseTags("a, b") == ["a", "b"]
  {
    assert Blank(" ") && Blank("");
    ParseTagsPadded(["a", "b"], ["", " "], ["", ""]);
    PaddedExample();
    JoinExample();
  }

  /** `x || fallback` for a string. */
  function OrElse(x: string, fallback: string): string {
    if x == "" then fallback else x
  }

  /**
   * The toolbar state read from the search parameters: each name that is
   * absent or empty takes its default, and any other value is taken as written.
   */
  function Parse(p: Params): (vs: ViewState)
    ensures AllTagsOk(vs.tags)
    ensures vs.cat != "" && vs.sort != "" && vs.view != ""
    ensures vs.q == Get(p, "q")
    ensures Get(p, "cat") != "" ==> vs.cat == Get(p, "cat")
    ensures Get(p, "sort") != "" ==> vs.sort == Get(p, "sort")
    ensures Get(p, "view") != "" ==> vs.view == Get(p, "view")
    ensures Blank(Get(p, "tags")) ==> vs.tags == []
    ensures AllTagsOk(Split(Get(p, "tags"), ',')) ==> vs.tags == Split(Get(p, "tags"), ',')
  {
    ParseTagsWellFormed(Get(p, "tags"));
    ViewState(
      Get(p, "q"),
      OrElse(Get(p, "cat"), "All"),
      ParseTags(Get(p, "tags")),
      OrElse(Get(p, "sort"), "a-z"),
      OrElse(Get(p, "view"), "grid"))
  }

  /**
   * Each field on its own: a name that is absent or present with an empty
   * value takes its default, whatever the other names hold.
   */
  lemma ParseDefaults(p: Params)
    ensures Get(p, "q") == "" ==> Parse(p).q == ""
    ensures Get(p, "cat") == "" ==> Parse(p).cat == "All"
    ensures Get(p, "tags") == "" ==> Parse(p).tags == []
    ensures Get(p, "sort") == "" ==> Parse(p).sort == "a-z"
    ensures Get(p, "view") == "" ==> Parse(p).view == "grid"
    ensures !Has(p, "q") && !Has(p, "cat") && !Has(p, "tags") && !Has(p, "sort") && !Has(p, "view") ==>
              Parse(p) == ViewState("", "All", [], "a-z", "grid")
  {
  }

  // The five writers of the toolbar.

  /** Typing in the search box. */
  function WriteQuery(p: Params, v: string): Params {
    Set(p, "q", v)
  }

  /** Choosing a category segment; "All" is written as no parameter. */
  function WriteCategory(p: Params, c: string): Params {
    Set(p, "cat", if c == "All" then "" else c)
  }

  /** `setTags`. */
  function SetTags(p: Params, ts: seq<string>): Params {
    Set(p, "tags", TagsParam(ts))
  }

  /** Ticking or unticking one tag: append it, or drop every copy of it. */
  function CheckTag(p: Params, t: string, checked: bool): Params {
    var selected := Parse(p).tags;
    SetTags(p, if checked then selected + [t] else Filter(selected, NotEqual(t)))
  }

  function NotEqual(t: string): string -> bool {
    (x: string) => x != t
  }

  function WriteSort(p: Params, v: string): Params {
    Set(p, "sort", v)
  }

  function WriteView(p: Params, v: string): Params {
    Set(p, "view", v)
  }

  /** Writing the search box changes the query and nothing else. */
  lemma WriteQueryThenParse(p: Params, v: string)
    ensures Parse(WriteQuery(p, v)) == Parse(p).(q := v)
  {
    SetOtherKey(p, "q", v, "cat");
    SetOtherKey(p, "q", v, "tags");
    SetOtherKey(p, "q", v, "sort");
    SetOtherKey(p, "q", v, "view");
  }

  /** A chosen category reads back as itself ("All" included); nothing else changes. */
  lemma WriteCategoryThenParse(p: Params, c: string)
    ensures Parse(WriteCategory(p, c)) == Parse(p).(cat := OrElse(c, "All"))
    ensures c == "All" ==> !Has(WriteCategory(p, c), "cat")
  {
    var v := if c == "All" then "" else c;
    SetOtherKey(p, "cat", v, "q");
    SetOtherKey(p, "cat", v, "tags");
    SetOtherKey(p, "cat", v, "sort");
    SetOtherKey(p, "cat", v, "view");
  }

  /** Well-formed tags read back as written; the empty list removes the parameter. */
  lemma SetTagsThenParse(p: Params, ts: seq<string>)
    requires AllTagsOk(ts)
    ensures Parse(SetTags(p, ts)) == Parse(p).(tags := ts)
    ensures ts == [] ==> !Has(SetTags(p, ts), "tags")
  {
    var v := TagsParam(ts);
    TagsRoundTrip(ts);
    SetOtherKey(p, "tags", v, "q");
    SetOtherKey(p, "tags", v, "cat");
    SetOtherKey(p, "tags", v, "sort");
    SetOtherKey(p, "tags", v, "view");
  }

  /**
   * Ticking a well-formed tag appends it to the selection; unticking removes
   * it and keeps every other selected tag in order.
   */
  lemma CheckTagThenParse(p: Params, t: string, checked: bool)
    requires TagOk(t)
    ensures var before, after := Parse(p), Parse(CheckTag(p, t, checked));
      && after == before.(tags := after.tags)
      && (checked ==> after.tags == before.tags + [t])
      && (!checked ==> t !in after.tags && IsSubseq(after.tags, before.tags))
      && (!checked ==> forall x :: x != t ==> (x in after.tags <==> x in before.tags))
  {
    var selected := Parse(p).tags;
    var next := if checked then selected + [t] else Filter(selected, NotEqual(t));
    assert AllTagsOk(next);
    SetTagsThenParse(p, next);
    if !checked {
      FilterIsSubseq(selected, NotEqual(t));
    }
  }

  lemma WriteSortThenParse(p: Params, v: string)
    ensures Parse(WriteSort(p, v)) == Parse(p).(sort := OrElse(v, "a-z"))
  {
    SetOtherKey(p, "sort", v, "q");
    SetOtherKey(p, "sort", v, "cat");
    SetOtherKey(p, "sort", v, "tags");
    SetOtherKey(p, "sort", v, "view");
  }

  lemma WriteViewThenParse(p: Params, v: string)
    ensures Parse(WriteView(p, v)) == Parse(p).(view := OrElse(v, "grid"))
  {
    SetOtherKey(p, "view", v, "q");
    SetOtherKey(p, "view", v, "cat");
    SetOtherKey(p, "view", v, "tags");
    SetOtherKey(p, "view", v, "sort");
  }

  // ---------------------------------------------------------------------
  // Facets: the tag universe and the per-category counts
  // ---------------------------------------------------------------------

  /** Some item carries tag `t`. */
  predicate HasTag(items: seq<Item>, t: string) {
    exists k :: 0 <= k < |items| && t in items[k].tags
  }

  /** `tags.forEach(t => tagSet.add(t))`: a set kept in insertion order. */
  function AddTags(seen: seq<string>, tags: seq<string>): (r: seq<string>)
    ensures NoDuplicates(seen) ==> NoDuplicates(r)
    ensures forall t :: t in r <==> t in seen || t in tags
    decreases |tags|
  {
    if |tags| == 0 then seen
    else
      var next := if tags[0] in seen then seen else seen + [tags[0]];
      assert forall t :: t in tags <==> t == tags[0] || t in tags[1..];
      AddTags(next, tags[1..])
  }

  /** The tag set after visiting `items` in order. */
  function TagSet(items: seq<Item>): (r: seq<string>)
    ensures NoDuplicates(r)
    ensures forall t :: t in r <==> HasTag(items, t)
    decreases |items|
  {
    if |items| == 0 then []
    else
      var init := items[..|items| - 1];
      var r := AddTags(TagSet(init), items[|items| - 1].tags);
      assert forall t :: HasTag(items, t) <==> HasTag(init, t) || t in items[|items| - 1].tags by {
        forall t ensures HasTag(items, t) <==> HasTag(init, t) || t in items[|items| - 1].tags {
          if HasTag(items, t) {
            var k :| 0 <= k < |items| && t in items[k].tags;
            if k < |items| - 1 {
              assert init[k] == items[k];
            }
          }
          if HasTag(init, t) {
            var k :| 0 <= k < |init| && t in init[k].tags;
            assert items[k] == init[k];
          }
        }
      }
      r
  }

  /** `localeCompare` on tags. */
  function TagOrder(): (string, string) -> bool {
    (a: string, b: string) => StrLe(a, b)
  }

  lemma TagOrderIsPreorder()
    ensures TotalPreorder(TagOrder())
  {
    var le := TagOrder();
    forall a: string, b: string ensures le(a, b) || le(b, a) {
      StrLeTotal(a, b);
    }
    forall a: string, b: string, c: string ensures Chain(le, a, b, c) {
      if StrLe(a, b) && StrLe(b, c) {
        StrLeTrans(a, b, c);
      }
    }
  }

  /** `allTags`: every tag of every item, once each, in ascending order. */
  function AllTags(items: seq<Item>): (r: seq<string>)
    ensures forall i, j :: 0 <= i < j < |r| ==> StrLt(r[i], r[j])
    ensures forall t :: t in r <==> HasTag(items, t)
  {
    TagOrderIsPreorder();
    var set_ := TagSet(items);
    var r := Sort(set_, TagOrder());
    PermutationNoDuplicates(r, set_);
    assert forall t :: t in r <==> t in multiset(set_);
    r
  }

  /** The keys of the category-count map: "All" and the five category names. */
  const CountKeys: set<string> := {"All", "Navigation", "Forms", "Feedback", "Data Display", "Layout"}

  function InCategory(c: Category): Item -> bool {
    (it: Item) => it.category == c
  }

  /** The number of items in category `c`. */
  function CountOf(items: seq<Item>, c: Category): nat {
    |Filter(items, InCategory(c))|
  }

  /** Counting one more item adds one to its own category only. */
  lemma CountOfSnoc(init: seq<Item>, last: Item, c: Category)
    ensures CountOf(init + [last], c) == CountOf(init, c) + (if last.category == c then 1 else 0)
  {
    FilterAppend(init, [last], InCategory(c));
  }

  /** One step of the tally: bump the item's category and "All". */
  function Bump(m: map<string, nat>, c: Category): (r: map<string, nat>)
    requires m.Keys == CountKeys
    ensures r.Keys == CountKeys
    ensures r["All"] == m["All"] + 1
    ensures forall d: Category :: r[d.Name()] == m[d.Name()] + (if d == c then 1 else 0)
  {
    var n := c.Name();
    forall d: Category ensures d.Name() != "All" && (d.Name() == n ==> d == c) {
      CategoryNameInjective(d, c);
      NameRoundTrip(d);
    }
    m[n := m[n] + 1]["All" := m["All"] + 1]
  }

  /**
   * `countsByCat`: starts at zero for "All" and every category, then each item
   * adds one to its category and one to "All".
   */
  function Tally(items: seq<Item>): (m: map<string, nat>)
    ensures m.Keys == CountKeys
    ensures m["All"] == |items|
    ensures forall c: Category :: m[c.Name()] == CountOf(items, c)
    decreases |items|
  {
    if |items| == 0 then
      map k | k in CountKeys :: 0
    else
      var init, last := items[..|items| - 1], items[|items| - 1];
      assert items == init + [last];
      forall c: Category ensures CountOf(items, c) == CountOf(init, c) + (if last.category == c then 1 else 0) {
        CountOfSnoc(init, last, c);
      }
      Bump(Tally(init), last.category)
  }

  /** The five category counts add up to the "All" count. */
  lemma {:induction false} CountsAddUp(items: seq<Item>)
    ensures var m := Tally(items);
      m["Navigation"] + m["Forms"] + m["Feedback"] + m["Data Display"] + m["Layout"] == m["All"]
    decreases |items|
  {
    var m := Tally(items);
    assert m["Navigation"] == CountOf(items, Navigation) && m["Forms"] == CountOf(items, Forms)
      && m["Feedback"] == CountOf(items, Feedback) && m["Data Display"] == CountOf(items, DataDisplay)
      && m["Layout"] == CountOf(items, Layout) by {
      assert Navigation.Name() == "Navigation" && Forms.Name() == "Forms" && Feedback.Name() == "Feedback";
      assert DataDisplay.Name() == "Data Display" && Layout.Name() == "Layout";
    }
    CategorySum(items);
  }

  lemma {:induction false} CategorySum(items: seq<Item>)
    ensures CountOf(items, Navigation) + CountOf(items, Forms) + CountOf(items, Feedback)
      + CountOf(items, DataDisplay) + CountOf(items, Layout) == |items|
    decreases |items|
  {
    if |items| > 0 {
      CategorySum(items[1..]);
    }
  }

  // ---------------------------------------------------------------------
  // Filtering
  // ---------------------------------------------------------------------

  /** The text the search box is matched against: name, category and tags, space-separated. */
  function SearchText(it: Item): string {
    Join([it.name, it.category.Name(), Join(it.tags, " ")], " ")
  }

  predicate ByCategory(cat: string, it: Item) {
    cat == "All" || it.category.Name() == cat
  }

  predicate ByQuery(q: string, it: Item) {
    q == "" || Contains(Lower(SearchText(it)), Lower(q))
  }

  /** Every selected tag is one of the item's tags. */
  predicate ByTags(selected: seq<string>, it: Item) {
    |selected| == 0 || forall k :: 0 <= k < |selected| ==> selected[k] in it.tags
  }

  predicate Matches(vs: ViewState, it: Item) {
    ByCategory(vs.cat, it) && ByQuery(vs.q, it) && ByTags(vs.tags, it)
  }

  function MatchesView(vs: ViewState): Item -> bool {
    (it: Item) => Matches(vs, it)
  }

  /** The items that pass all three tests, in their original order. */
  function FilterItems(items: seq<Item>, vs: ViewState): (r: seq<Item>)
    ensures IsSubseq(r, items)
    ensures forall k :: 0 <= k < |r| ==> r[k] in items && Matches(vs, r[k])
    ensures forall k :: 0 <= k < |items| && Matches(vs, items[k]) ==> items[k] in r
  {
    FilterIsSubseq(items, MatchesView(vs));
    Filter(items, MatchesView(vs))
  }

  /** A `cat` that is neither "All" nor a category name lets nothing through. */
  lemma UnknownCategoryIsEmpty(items: seq<Item>, vs: ViewState)
    requires vs.cat != "All" && CategoryNamed(vs.cat).None?
    ensures FilterItems(items, vs) == []
  {
  }

  /** With no category, query or tag chosen, every item is shown. */
  lemma NoFilterKeepsAll(items: seq<Item>, vs: ViewState)
    requires vs.cat == "All" && vs.q == "" && vs.tags == []
    ensures FilterItems(items, vs) == items
  {
    FilterAll(items, MatchesView(vs));
  }

  /** Selecting one more tag can only remove items: the tag test is a conjunction. */
  lemma MoreTagsFewerItems(items: seq<Item>, vs: ViewState, t: string)
    ensures IsSubseq(FilterItems(items, vs.(tags := vs.tags + [t])), FilterItems(items, vs))
    ensures |FilterItems(items, vs.(tags := vs.tags + [t]))| <= |FilterItems(items, vs)|
  {
    var vs' := vs.(tags := vs.tags + [t]);
    forall it | it in items && Matches(vs', it) ensures Matches(vs, it) {
      if |vs.tags| > 0 {
        forall k | 0 <= k < |vs.tags| ensures vs.tags[k] in it.tags {
          assert vs'.tags[k] == vs.tags[k];
        }
      }
    }
    FilterMonotone(items, MatchesView(vs'), MatchesView(vs));
    SubseqLength(FilterItems(items, vs'), FilterItems(items, vs));
  }

  // ---------------------------------------------------------------------
  // Sorting
  // ---------------------------------------------------------------------

  datatype SortKey = NameAscending | NameDescending | CategoryThenName | TagCountDescending

  /** The `switch (sort)`: anything unrecognised takes the default branch. */
  function SortKeyOf(sort: string): (k: SortKey)
    ensures sort != "z-a" && sort != "category" && sort != "tags" ==> k == NameAscending
  {
    if sort == "z-a" then NameDescending
    else if sort == "category" then CategoryThenName
    else if sort == "tags" then TagCountDescending
    else NameAscending
  }

  /** The value the sort menu writes for each key. */
  function SortKeyName(k: SortKey): string {
    match k
    case NameAscending => "a-z"
    case NameDescending => "z-a"
    case CategoryThenName => "category"
    case TagCountDescending => "tags"
  }

  lemma SortKeyRoundTrip(k: SortKey)
    ensures SortKeyOf(SortKeyName(k)) == k
  {
  }

  /** The category comparator: same category by name, otherwise by category name. */
  predicate CategoryLe(a: Item, b: Item) {
    if a.category == b.category then StrLe(a.name, b.name) else StrLe(a.category.Name(), b.category.Name())
  }

  /** `compare(a, b) <= 0` for each of the four comparators. */
  function Order(k: SortKey): (Item, Item) -> bool {
    match k
    case NameAscending => (a: Item, b: Item) => StrLe(a.name, b.name)
    case NameDescending => (a: Item, b: Item) => StrLe(b.name, a.name)
    case CategoryThenName => (a: Item, b: Item) => CategoryLe(a, b)
    case TagCountDescending => (a: Item, b: Item) => |a.tags| >= |b.tags|
  }

  lemma CategoryNameInjective(a: Category, b: Category)
    ensures a.Name() == b.Name() ==> a == b
  {
    NameRoundTrip(a);
    NameRoundTrip(b);
  }

  lemma CategoryChain(a: Item, b: Item, c: Item)
    ensures CategoryLe(a, b) && CategoryLe(b, c) ==> CategoryLe(a, c)
  {
    var an, bn, cn := a.category.Name(), b.category.Name(), c.category.Name();
    CategoryNameInjective(a.category, b.category);
    CategoryNameInjective(b.category, c.category);
    CategoryNameInjective(a.category, c.category);
    if StrLe(an, bn) && StrLe(bn, cn) { StrLeTrans(an, bn, cn); }
    if StrLe(a.name, b.name) && StrLe(b.name, c.name) { StrLeTrans(a.name, b.name, c.name); }
    if StrLe(an, bn) && StrLe(bn, an) { StrLeAntisym(an, bn); }
    if StrLe(bn, cn) && StrLe(cn, bn) { StrLeAntisym(bn, cn); }
  }

  /** Each of the four comparators is consistent, so the stable sort is well defined. */
  lemma OrderIsPreorder(k: SortKey)
    ensures TotalPreorder(Order(k))
  {
    var le := Order(k);
    forall a: Item, b: Item ensures le(a, b) || le(b, a) {
      StrLeTotal(a.name, b.name);
      StrLeTotal(a.category.Name(), b.category.Name());
    }
    forall a: Item, b: Item, c: Item ensures Chain(le, a, b, c) {
      match k
      case NameAscending =>
        if StrLe(a.name, b.name) && StrLe(b.name, c.name) { StrLeTrans(a.name, b.name, c.name); }
      case NameDescending =>
        if StrLe(c.name, b.name) && StrLe(b.name, a.name) { StrLeTrans(c.name, b.name, a.name); }
      case CategoryThenName =>
        CategoryChain(a, b, c);
      case TagCountDescending =>
    }
  }

  /**
   * `arr.sort(compare)` for the chosen key: a rearrangement of the filtered
   * items, ordered by the key, with items the key cannot tell apart left in
   * filter order.
   */
  function Arrange(items: seq<Item>, k: SortKey): (r: seq<Item>)
    ensures multiset(r) == multiset(items)
    ensures k == NameAscending ==> forall i, j :: 0 <= i < j < |r| ==> StrLe(r[i].name, r[j].name)
    ensures k == NameDescending ==> forall i, j :: 0 <= i < j < |r| ==> StrLe(r[j].name, r[i].name)
    ensures k == CategoryThenName ==> forall i, j :: 0 <= i < j < |r| ==> CategoryLe(r[i], r[j])
    ensures k == TagCountDescending ==> forall i, j :: 0 <= i < j < |r| ==> |r[i].tags| >= |r[j].tags|
    ensures SameClasses(r, items, Order(k))
  {
    OrderIsPreorder(k);
    var r := Sort(items, Order(k));
    assert forall i, j :: 0 <= i < j < |r| ==> Order(k)(r[i], r[j]);
    r
  }

  /**
   * Under the tag-count order, the items with any one tag count appear in the
   * same relative order as in the filtered list.
   */
  lemma TagCountTiesKeepOrder(items: seq<Item>, z: Item)
    ensures ClassOf(Arrange(items, TagCountDescending), Order(TagCountDescending), z)
         == ClassOf(items, Order(TagCountDescending), z)
  {
  }

  /** Any ordered, stable rearrangement of the filtered items is the one the page shows. */
  lemma ArrangeIsUnique(items: seq<Item>, k: SortKey, r: seq<Item>)
    requires Sorted(r, Order(k)) && SameClasses(r, items, Order(k))
    ensures r == Arrange(items, k)
  {
    OrderIsPreorder(k);
    SortIsTheStableSort(r, items, Order(k));
  }

  // ---------------------------------------------------------------------
  // The derived view
  // ---------------------------------------------------------------------

  datatype ViewMode = GridView | ListView

  /** `view === 'grid'`: every other value renders as a list. */
  function RenderMode(view: string): (m: ViewMode)
    ensures m == GridView <==> view == "grid"
  {
    if view == "grid" then GridView else ListView
  }

  datatype DerivedView = DerivedView(allTags: seq<string>, counts: map<string, nat>, shown: seq<Item>, mode: ViewMode)

  lemma SameMembers<T>(r: seq<T>, s: seq<T>)
    requires multiset(r) == multiset(s)
    ensures forall x :: x in r <==> x in s
  {
    forall x ensures x in r <==> x in s {
      assert x in r <==> x in multiset(r);
      assert x in s <==> x in multiset(s);
    }
  }

  /** Facets from the whole list; the shown items filtered, then sorted by the chosen key. */
  function Derive(items: seq<Item>, vs: ViewState): (v: DerivedView)
    ensures forall it :: it in v.shown <==> it in items && Matches(vs, it)
    ensures multiset(v.shown) == multiset(FilterItems(items, vs))
    ensures Sorted(v.shown, Order(SortKeyOf(vs.sort)))
    ensures SameClasses(v.shown, FilterItems(items, vs), Order(SortKeyOf(vs.sort)))
    ensures forall t :: t in v.allTags <==> HasTag(items, t)
    ensures v.counts.Keys == CountKeys
    ensures v.counts["All"] == |items|
    ensures forall c: Category :: v.counts[c.Name()] == CountOf(items, c)
    ensures v.allTags == AllTags(items)
    ensures v.counts == Tally(items)
    ensures v.mode == RenderMode(vs.view)
    ensures v.mode == GridView <==> vs.view == "grid"
  {
    var filtered := FilterItems(items, vs);
    var shown := Arrange(filtered, SortKeyOf(vs.sort));
    OrderIsPreorder(SortKeyOf(vs.sort));
    SameMembers(shown, filtered);
    DerivedView(AllTags(items), Tally(items), shown, RenderMode(vs.view))
  }

  /** The facets depend on the item list alone, never on the query, tags, category or sort. */
  lemma FacetsIgnoreViewState(items: seq<Item>, vs1: ViewState, vs2: ViewState)
    ensures Derive(items, vs1).allTags == Derive(items, vs2).allTags
    ensures Derive(items, vs1).counts == Derive(items, vs2).counts
  {
  }

  // ---------------------------------------------------------------------
  // Search highlight
  // ---------------------------------------------------------------------

  /** A highlighted text: unchanged, or split around one marked occurrence. */
  datatype Marking = Plain(text: string) | Marked(before: string, hit: string, after: string) {
    function Text(): string {
      match this
      case Plain(t) => t
      case Marked(b, m, a) => b + m + a
    }
  }

  /**
   * `highlight` (and its twin `highlightMaybe`): mark the first
   * case-insensitive occurrence of the query.
   */
  function Highlight(text: string, query: string): (h: Marking)
    ensures h.Text() == text
    ensures h.Marked? <==> query != "" && exists j :: MatchAt(Lower(text), Lower(query), j)
    ensures h.Marked? ==> |h.hit| == |query| && Lower(h.hit) == Lower(query)
    ensures h.Marked? ==> forall j :: 0 <= j < |h.before| ==> !MatchAt(Lower(text), Lower(query), j)
  {
    if query == "" then Plain(text)
    else
      match IndexOf(Lower(text), Lower(query))
      case None => Plain(text)
      case Some(idx) =>
        var end := idx + |query|;
        LowerSlice(text, idx, end);
        assert text == text[..idx] + text[idx..end] + text[end..];
        Marked(text[..idx], text[idx..end], text[end..])
  }

  // ---------------------------------------------------------------------
  // Favourites
  // ---------------------------------------------------------------------

  /** `toggleFav`: remove the id if it is a favourite, otherwise append it. */
  function ToggleFav(favs: seq<string>, id: string): (r: seq<string>)
    ensures id in r <==> id !in favs
    ensures forall x :: x != id ==> (x in r <==> x in favs)
    ensures NoDuplicates(favs) ==> NoDuplicates(r)
    ensures id in favs ==> IsSubseq(r, favs)
    ensures id !in favs ==> |r| == |favs| + 1 && r[..|favs|] == favs
  {
    if id in favs then
      FilterIsSubseq(favs, NotEqual(id));
      if NoDuplicates(favs) then
        FilterNoDuplicates(favs, NotEqual(id));
        Filter(favs, NotEqual(id))
      else
        Filter(favs, NotEqual(id))
    else
      favs + [id]
  }

  /** Toggling the same id twice gives the original list back when it was not a favourite. */
  lemma {:induction false} ToggleFavTwice(favs: seq<string>, id: string)
    ensures forall x :: x in ToggleFav(ToggleFav(favs, id), id) <==> x in favs
    ensures id !in favs ==> ToggleFav(ToggleFav(favs, id), id) == favs
  {
    if id !in favs {
      FilterAppend(favs, [id], NotEqual(id));
      FilterAll(favs, NotEqual(id));
      assert Filter([id], NotEqual(id)) == [];
    }
  }
}

=== FILE: gallery_page.dfy ===
/**
 * The gallery page put together (src/app/showcase/components/page.tsx): the
 * view state read from the URL, the item list fetched from
 * `/api/components?q=<q>`, and the view derived from both.
 *
 * As written, the page passes the search text to the endpoint and derives
 * both the facets and the shown list from the response. The endpoint matches
 * names only, so the page's own search over category and tags never sees the
 * items it would have matched, and the facet counts shrink with the query.
 * `ViewAsWritten` models that; `View` derives from the full list, which is
 * what the page's own filter and facet code are written for.
 */
module GalleryPage {

  import opened Strings
  import opened Types
  import opened QueryParams
  import opened Gallery
  import opened StableSort
  import ComponentsApi
  import Seed

  /** An item is fetched for query `q` exactly when it is a demo whose name contains `q`. */
  lemma FetchedMembers(demos: seq<Item>, q: string)
    ensures forall it :: it in ComponentsApi.Search(demos, q) <==> it in demos && ComponentsApi.NameContains(q, it)
  {
    var fetched := ComponentsApi.Search(demos, q);
    forall it ensures it in fetched <==> it in demos && ComponentsApi.NameContains(q, it) {
      if it in fetched {
        var k :| 0 <= k < |fetched| && fetched[k] == it;
      }
      if it in demos && ComponentsApi.NameContains(q, it) {
        var k :| 0 <= k < |demos| && demos[k] == it;
      }
    }
  }

  /** The view derived from whatever the search endpoint answers for the query. */
  function DeriveFetched(demos: seq<Item>, vs: ViewState): (v: DerivedView)
    ensures forall it :: it in v.shown <==> it in demos && ComponentsApi.NameContains(vs.q, it) && Matches(vs, it)
    ensures forall t :: t in v.allTags <==> HasTag(ComponentsApi.Search(demos, vs.q), t)
    ensures v.allTags == AllTags(ComponentsApi.Search(demos, vs.q))
    ensures v.counts == Tally(ComponentsApi.Search(demos, vs.q))
    ensures v.counts.Keys == CountKeys
    ensures v.counts["All"] == |ComponentsApi.Search(demos, vs.q)|
    ensures forall c: Category :: v.counts[c.Name()] == CountOf(ComponentsApi.Search(demos, vs.q), c)
    ensures Sorted(v.shown, Order(SortKeyOf(vs.sort)))
  {
    FetchedMembers(demos, vs.q);
    Derive(ComponentsApi.Search(demos, vs.q), vs)
  }

  /**
   * The page as written: facets and list come from the name-filtered
   * response, so an item is shown only when its name contains the query, and
   * the tag list and the counts cover the matching names alone.
   */
  function ViewAsWritten(p: Params): (v: DerivedView)
    ensures forall it :: it in v.shown <==>
              it in Seed.ComponentDemos && ComponentsApi.NameContains(Parse(p).q, it) && Matches(Parse(p), it)
    ensures forall t :: t in v.allTags <==> HasTag(ComponentsApi.Search(Seed.ComponentDemos, Parse(p).q), t)
    ensures v.allTags == AllTags(ComponentsApi.Search(Seed.ComponentDemos, Parse(p).q))
    ensures v.counts == Tally(ComponentsApi.Search(Seed.ComponentDemos, Parse(p).q))
    ensures v.counts["All"] == |ComponentsApi.Search(Seed.ComponentDemos, Parse(p).q)|
    ensures forall c: Category :: v.counts[c.Name()] == CountOf(ComponentsApi.Search(Seed.ComponentDemos, Parse(p).q), c)
    ensures Sorted(v.shown, Order(SortKeyOf(Parse(p).sort)))
  {
    DeriveFetched(Seed.ComponentDemos, Parse(p))
  }

  /** The page derived from the full list: facets independent of the URL. */
  function View(p: Params): (v: DerivedView)
    ensures forall it :: it in v.shown <==> it in Seed.ComponentDemos && Matches(Parse(p), it)
    ensures v.allTags == AllTags(Seed.ComponentDemos)
    ensures v.counts == Tally(Seed.ComponentDemos)
    ensures Sorted(v.shown, Order(SortKeyOf(Parse(p).sort)))
  {
    Derive(Seed.ComponentDemos, Parse(p))
  }

  /** Whatever the page shows as written, the corrected page shows too. */
  lemma AsWrittenShowsSubset(p: Params)
    ensures forall it :: it in ViewAsWritten(p).shown ==> it in View(p).shown
  {
  }

  /** The URL `?q=sortable`. */
  const SortableQuery: Params := [Param("q", "sortable")]

  lemma ParseSortableQuery()
    ensures Parse(SortableQuery) == ViewState("sortable", "All", [], "a-z", "grid")
  {
    assert ParseTags("") == [] by {
      assert Blank("");
    }
  }

  /** "sortable" occurs in the Data Table demo's search text. */
  lemma DataTableMatchesSortable()
    ensures Matches(ViewState("sortable", "All", [], "a-z", "grid"), Seed.ComponentDemos[1])
  {
    var it := Seed.ComponentDemos[1];
    var tags := Join(it.tags, " ");
    assert tags == "virtualized" + " " + ("sortable" + " " + "filterable");
    var text := SearchText(it);
    assert text == "Data Table" + " " + ("Data Display" + " " + tags);
    assert text[36..44] == "sortable";
    LowerSlice(text, 36, 44);
    assert Lower("sortable") == "sortable";
    assert MatchAt(Lower(text), Lower("sortable"), 36);
  }

  /** As written, searching for a tag word shows nothing and zeroes the "All" count. */
  lemma SortableSearchAsWritten()
    ensures ViewAsWritten(SortableQuery).shown == []
    ensures ViewAsWritten(SortableQuery).counts["All"] == 0
  {
    ParseSortableQuery();
    ComponentsApi.SearchTagWordFindsNothing();
  }

  /** Derived from the full list, the same search shows the tagged demo over an intact catalogue. */
  lemma SortableSearchCorrected()
    ensures Seed.ComponentDemos[1] in View(SortableQuery).shown
    ensures View(SortableQuery).counts["All"] == 3
  {
    ParseSortableQuery();
    DataTableMatchesSortable();
  }
}

=== FILE: nav.dfy ===
/**
 * The showcase shell's side menu (src/app/showcase/layout.tsx): the menu keys
 * are sorted by length, longest first, and the selected entry is the first
 * key the current pathname starts with, or "/showcase" when none does (or the
 * pathname is not known yet).
 *
 * "Starts with" is a plain string prefix, not a path-segment prefix, so
 * "/showcase/formsx" also selects "/showcase/forms".
 */
module Nav {

  import opened Wrappers
  import opened Strings
  import opened StableSort

  /** The menu keys, in menu order. */
  const Keys: seq<string> := [
    "/showcase",
    "/showcase/dashboards",
    "/showcase/components",
    "/showcase/forms",
    "/showcase/theming",
    "/showcase/accessibility",
    "/showcase/motion"
  ]

  const Fallback: string := "/showcase"

  /** `(a, b) => b.length - a.length`, read as "a may come before b". */
  function LongerFirst(): (string, string) -> bool {
    (a: string, b: string) => |a| >= |b|
  }

  lemma LongerFirstIsPreorder()
    ensures TotalPreorder(LongerFirst())
  {
  }

  /** The first key in `keys` that `path` starts with. */
  function FindPrefix(keys: seq<string>, path: string): (r: Option<nat>)
    ensures r.None? ==> forall k :: 0 <= k < |keys| ==> !IsPrefix(keys[k], path)
    ensures r.Some? ==> r.value < |keys| && IsPrefix(keys[r.value], path)
    ensures r.Some? ==> forall k :: 0 <= k < r.value ==> !IsPrefix(keys[k], path)
  {
    if |keys| == 0 then None
    else if IsPrefix(keys[0], path) then Some(0)
    else
      match FindPrefix(keys[1..], path)
      case None => None
      case Some(i) => Some(i + 1)
  }

  /** `selected` for any list of keys. */
  function Select(keys: seq<string>, pathname: Option<string>): (r: string)
    ensures r in keys || r == Fallback
    ensures pathname.None? ==> r == Fallback
    ensures pathname.Some? && (forall k :: k in keys ==> !IsPrefix(k, pathname.value)) ==> r == Fallback
    ensures pathname.Some? && (exists k :: k in keys && IsPrefix(k, pathname.value)) ==>
              r in keys && IsPrefix(r, pathname.value) &&
              forall k :: k in keys && IsPrefix(k, pathname.value) ==> |k| <= |r|
  {
    LongerFirstIsPreorder();
    var sorted := Sort(keys, LongerFirst());
    assert forall k :: k in keys <==> k in sorted by {
      assert forall k :: k in keys <==> k in multiset(keys);
      assert forall k :: k in sorted <==> k in multiset(sorted);
    }
    if pathname.None? then Fallback
    else
      match FindPrefix(sorted, pathname.value)
      case None => Fallback
      case Some(i) =>
        assert forall k :: k in keys && IsPrefix(k, pathname.value) ==> |k| <= |sorted[i]| by {
          forall k | k in keys && IsPrefix(k, pathname.value) ensures |k| <= |sorted[i]| {
            var j :| 0 <= j < |sorted| && sorted[j] == k;
            assert j >= i;
            if j > i {
              assert LongerFirst()(sorted[i], sorted[j]);
            }
          }
        }
        sorted[i]
  }

  /** The shell's selected menu key. */
  function Selected(pathname: Option<string>): (r: string)
    ensures r in Keys
    ensures pathname.None? ==> r == "/showcase"
    ensures pathname.Some? && IsPrefix("/showcase", pathname.value) ==>
              IsPrefix(r, pathname.value) &&
              forall k :: k in Keys && IsPrefix(k, pathname.value) ==> |k| <= |r|
    ensures pathname.Some? && !IsPrefix("/showcase", pathname.value) ==> r == "/showcase"
  {
    if pathname.Some? && !IsPrefix("/showcase", pathname.value) then
      NoKeyOutside(pathname.value);
      Select(Keys, pathname)
    else
      Select(Keys, pathname)
  }

  /** Every menu key starts with "/showcase", so a path that does not matches none of them. */
  lemma NoKeyOutside(path: string)
    requires !IsPrefix("/showcase", path)
    ensures forall k :: k in Keys ==> !IsPrefix(k, path)
  {
    forall k | k in Keys && IsPrefix(k, path) ensures false {
      assert IsPrefix("/showcase", k);
      PrefixTrans("/showcase", k, path);
    }
  }

  /** Among the menu keys, the character after "/showcase/" tells the sections apart. */
  lemma FormsKeyByLetter(r: string)
    requires r in Keys && |r| > 10 && r[10] == 'f'
    ensures r == "/showcase/forms"
  {
  }

  lemma PrefixTrans(a: string, b: string, s: string)
    requires IsPrefix(a, b) && IsPrefix(b, s)
    ensures IsPrefix(a, s)
  {
    assert s[..|a|] == s[..|b|][..|a|];
  }

  /** A key at least as long as "/showcase/forms" that the path starts with is "/showcase/forms". */
  lemma FormsWins(path: string, r: string)
    requires IsPrefix("/showcase/forms", path)
    requires r in Keys && IsPrefix(r, path) && |r| >= 15
    ensures r == "/showcase/forms"
  {
    assert path[10] == 'f' by {
      assert path[..15][10] == 'f';
    }
    assert r[10] == path[10] by {
      assert path[..|r|][10] == path[10];
    }
    FormsKeyByLetter(r);
  }

  /** Whenever "/showcase/forms" is a prefix of the path, it is the selected key. */
  lemma FormsSectionSelected(path: string)
    requires IsPrefix("/showcase/forms", path)
    ensures Selected(Some(path)) == "/showcase/forms"
  {
    var forms := Keys[3];
    assert IsPrefix(Keys[0], forms);
    PrefixTrans(Keys[0], forms, path);
    var r := Selected(Some(path));
    assert |forms| <= |r| by {
      assert forms in Keys;
    }
    FormsWins(path, r);
  }

  /** A nested route highlights its section. */
  lemma NestedRouteSelectsSection()
    ensures Selected(Some("/showcase/forms/step-2")) == "/showcase/forms"
  {
    FormsSectionSelected("/showcase/forms/step-2");
  }

  /** A path that only extends a key's text, not its segments, still selects that key. */
  lemma RawPrefixSelectsSection()
    ensures Selected(Some("/showcase/formsx")) == "/showcase/forms"
  {
    FormsSectionSelected("/showcase/formsx");
  }

  /** Outside the showcase the menu falls back to its first entry. */
  lemma OutsideFallsBack(path: string)
    requires !IsPrefix("/showcase", path)
    ensures Selected(Some(path)) == "/showcase"
  {
    NoKeyOutside(path);
  }

  /** The site root is outside the showcase. */
  lemma RootFallsBack()
    ensures Selected(Some("/")) == "/showcase"
  {
    OutsideFallsBack("/");
  }
}

=== FILE: onboarding.dfy ===
/**
 * The onboarding wizard (src/app/showcase/forms/page.tsx): the workspace
 * slug generated from the organisation name, the three steps and the field
 * rules each step checks before moving on.
 */
module Onboarding {

  import opened Wrappers
  import opened Strings
  import opened Seqs

  // ---------------------------------------------------------------------
  // slugify
  // ---------------------------------------------------------------------

  /** `[a-z0-9]`. */
  predicate IsSlugChar(c: char) {
    'a' <= c <= 'z' || '0' <= c <= '9'
  }

  /** `[a-z0-9-]`. */
  predicate InSlugAlphabet(c: char) {
    IsSlugChar(c) || c == '-'
  }

  function SlugChars(): char -> bool {
    (c: char) => IsSlugChar(c)
  }

  predicate AllInSlugAlphabet(s: string) {
    forall i :: 0 <= i < |s| ==> InSlugAlphabet(s[i])
  }

  /** No two dashes in a row. */
  predicate NoDoubleDash(s: string) {
    forall i :: 0 <= i < |s| - 1 ==> s[i] != '-' || s[i + 1] != '-'
  }

  predicate StartsWithDash(s: string) {
    |s| > 0 && s[0] == '-'
  }

  predicate EndsWithDash(s: string) {
    |s| > 0 && s[|s| - 1] == '-'
  }

  /**
   * `.replace(/[^a-z0-9]+/g, '-')`: each maximal run of characters outside
   * `[a-z0-9]` becomes one dash. `inRun` says the run has already been
   * replaced by the dash emitted before `s`.
   */
  function Collapse(s: string, inRun: bool): (r: string)
    ensures AllInSlugAlphabet(r)
    ensures NoDoubleDash(r)
    ensures inRun ==> !StartsWithDash(r)
    decreases |s|
  {
    if |s| == 0 then ""
    else if IsSlugChar(s[0]) then [s[0]] + Collapse(s[1..], false)
    else if inRun then Collapse(s[1..], true)
    else "-" + Collapse(s[1..], true)
  }

  /** Collapsing keeps every letter and digit of the input, in order: only the other characters turn into dashes. */
  lemma {:induction false} CollapseKeepsSlugChars(s: string, inRun: bool)
    ensures Filter(Collapse(s, inRun), SlugChars()) == Filter(s, SlugChars())
    decreases |s|
  {
    if |s| > 0 {
      CollapseKeepsSlugChars(s[1..], !IsSlugChar(s[0]));
      if IsSlugChar(s[0]) {
        FilterCons(s[0], Collapse(s[1..], false), SlugChars());
      } else if !inRun {
        FilterCons('-', Collapse(s[1..], true), SlugChars());
      }
    }
  }

  /**
   * `.replace(/(^-|-$)+/g, '')`. With no double dashes left, the pattern can
   * only match one dash at the start and one at the end.
   */
  function StripEdges(t: string): (r: string)
    requires NoDoubleDash(t)
    ensures AllInSlugAlphabet(t) ==> AllInSlugAlphabet(r)
    ensures NoDoubleDash(r)
    ensures !StartsWithDash(r) && !EndsWithDash(r)
    ensures !StartsWithDash(t) && !EndsWithDash(t) ==> r == t
    ensures exists i, j :: 0 <= i <= j <= |t| && r == t[i..j] &&
              (forall k :: 0 <= k < i ==> t[k] == '-') && (forall k :: j <= k < |t| ==> t[k] == '-')
  {
    var i := if StartsWithDash(t) then 1 else 0;
    var a := t[i..];
    assert |a| > 0 && StartsWithDash(t) ==> a[0] == t[1];
    var j := if EndsWithDash(a) then |t| - 1 else |t|;
    assert EndsWithDash(a) ==> a[..|a| - 1] == t[i..j];
    assert forall k :: j <= k < |t| ==> t[k] == '-';
    if EndsWithDash(a) then a[..|a| - 1] else a
  }

  /** A dash carries no letter or digit, so dropping one at either end keeps them all. */
  lemma DropDashKeepsSlugChars(a: string, b: string)
    ensures Filter(a + "-" + b, SlugChars()) == Filter(a + b, SlugChars())
  {
    FilterAppend(a + "-", b, SlugChars());
    FilterAppend(a, "-", SlugChars());
    FilterCons('-', [], SlugChars());
    FilterAppend(a, b, SlugChars());
  }

  /** Dropping the edge dashes keeps every letter and digit. */
  lemma StripEdgesKeepsSlugChars(t: string)
    requires NoDoubleDash(t)
    ensures Filter(StripEdges(t), SlugChars()) == Filter(t, SlugChars())
  {
    var a := if StartsWithDash(t) then t[1..] else t;
    if StartsWithDash(t) {
      assert t == [] + "-" + a;
      DropDashKeepsSlugChars([], a);
      assert [] + a == a;
    }
    if EndsWithDash(a) {
      var b := a[..|a| - 1];
      assert a == b + "-" + [];
      DropDashKeepsSlugChars(b, []);
      assert b + [] == b;
    }
  }

  /** The letters and digits of a prefix are a prefix of the letters and digits. */
  lemma FilterOfPrefix(t: string, k: nat)
    requires k <= |t|
    ensures IsPrefix(Filter(t[..k], SlugChars()), Filter(t, SlugChars()))
  {
    assert t == t[..k] + t[k..];
    FilterAppend(t[..k], t[k..], SlugChars());
  }

  /** `.slice(0, 32)`. */
  function Take32(t: string): (r: string)
    ensures |r| <= 32 && |r| <= |t|
    ensures r == t[..|r|]
    ensures |t| <= 32 ==> r == t
  {
    if |t| <= 32 then t else t[..32]
  }

  /** `slugify`: lower-case, collapse, strip the edge dashes, cut to 32 characters. */
  function Slugify(s: Option<string>): (r: string)
    ensures s.None? ==> r == ""
    ensures |r| <= 32
    ensures AllInSlugAlphabet(r)
    ensures !StartsWithDash(r)
    ensures NoDoubleDash(r)
    ensures |r| < 32 ==> !EndsWithDash(r)
    ensures IsPrefix(Filter(r, SlugChars()), Filter(Lower(s.GetOr("")), SlugChars()))
    ensures |r| < 32 ==> Filter(r, SlugChars()) == Filter(Lower(s.GetOr("")), SlugChars())
  {
    var c := Collapse(Lower(s.GetOr("")), false);
    var t := StripEdges(c);
    CollapseKeepsSlugChars(Lower(s.GetOr("")), false);
    StripEdgesKeepsSlugChars(c);
    var r := Take32(t);
    FilterOfPrefix(t, |r|);
    assert |r| < 32 ==> r == t;
    assert |r| > 0 ==> r[0] == t[0];
    r
  }

  /** The workspace-URL rule `^[a-z0-9-]{2,32}$`. */
  predicate SlugRule(s: string) {
    2 <= |s| <= 32 && AllInSlugAlphabet(s)
  }

  /** A generated slug of at least two characters passes the workspace-URL rule. */
  lemma SlugifyMeetsRule(s: Option<string>)
    requires |Slugify(s)| >= 2
    ensures SlugRule(Slugify(s))
  {
  }

  /** A slug already in the form `slugify` produces. */
  predicate CleanSlug(t: string) {
    |t| <= 32 && AllInSlugAlphabet(t) && NoDoubleDash(t) && !StartsWithDash(t) && !EndsWithDash(t)
  }

  lemma {:induction false} CollapseKeepsClean(t: string, inRun: bool)
    requires AllInSlugAlphabet(t) && NoDoubleDash(t)
    requires inRun ==> !StartsWithDash(t)
    ensures Collapse(t, inRun) == t
    decreases |t|
  {
    if |t| > 0 {
      var rest := t[1..];
      assert AllInSlugAlphabet(rest) && NoDoubleDash(rest) by {
        forall i | 0 <= i < |rest| ensures rest[i] == t[i + 1] { }
      }
      if t[0] == '-' {
        assert |rest| > 0 ==> rest[0] == t[1];
        CollapseKeepsClean(rest, true);
      } else {
        CollapseKeepsClean(rest, false);
      }
      assert t == [t[0]] + rest;
    }
  }

  lemma LowerKeepsSlug(t: string)
    requires AllInSlugAlphabet(t)
    ensures Lower(t) == t
  {
    assert forall i :: 0 <= i < |t| ==> !IsUpper(t[i]);
  }

  /** `slugify` leaves a clean slug as it is. */
  lemma SlugifyFixedPoint(t: string)
    requires CleanSlug(t)
    ensures Slugify(Some(t)) == t
  {
    LowerKeepsSlug(t);
    CollapseKeepsClean(t, false);
  }

  /** Slugifying again changes a slug exactly when the first pass left a trailing dash. */
  lemma SlugifyTwice(s: Option<string>)
    ensures Slugify(Some(Slugify(s))) == Slugify(s) <==> !EndsWithDash(Slugify(s))
  {
    var t := Slugify(s);
    if !EndsWithDash(t) {
      SlugifyFixedPoint(t);
    } else {
      LowerKeepsSlug(t);
      CollapseKeepsClean(t, false);
      var stripped := StripEdges(t);
      assert |stripped| < |t|;
      assert Slugify(Some(t)) == stripped;
      assert !EndsWithDash(Slugify(Some(t)));
    }
  }

  lemma {:induction false} CollapseSlugPrefix(x: string, rest: string, inRun: bool)
    requires forall i :: 0 <= i < |x| ==> IsSlugChar(x[i])
    requires |x| > 0
    ensures Collapse(x + rest, inRun) == x + Collapse(rest, false)
    decreases |x|
  {
    var xr := x + rest;
    assert xr[0] == x[0] && xr[1..] == x[1..] + rest;
    assert Collapse(xr, inRun) == [x[0]] + Collapse(x[1..] + rest, false);
    if |x| > 1 {
      CollapseSlugPrefix(x[1..], rest, false);
    } else {
      assert x[1..] + rest == rest;
    }
    assert x == [x[0]] + x[1..];
  }

  predicate AllSlugChars(w: string) {
    forall k :: 0 <= k < |w| ==> IsSlugChar(w[k])
  }

  predicate NoSlugChars(run: string) {
    forall k :: 0 <= k < |run| ==> !IsSlugChar(run[k])
  }

  /** `rest` is empty or begins a new word, so a run before it is maximal. */
  predicate WordStart(rest: string) {
    |rest| == 0 || IsSlugChar(rest[0])
  }

  /** Where a run is already marked, a word start reads the same either way. */
  lemma CollapseWordStart(rest: string)
    requires WordStart(rest)
    ensures Collapse(rest, true) == Collapse(rest, false)
  {
  }

  /** A maximal run outside `[a-z0-9]` yields one dash, or none when its dash was already emitted. */
  lemma {:induction false} CollapseRun(run: string, rest: string, inRun: bool)
    requires |run| > 0 && NoSlugChars(run) && WordStart(rest)
    ensures Collapse(run + rest, inRun) == (if inRun then "" else "-") + Collapse(rest, false)
    decreases |run|
  {
    var rr := run + rest;
    assert rr[0] == run[0] && rr[1..] == run[1..] + rest;
    if |run| == 1 {
      assert run[1..] + rest == rest;
      CollapseWordStart(rest);
    } else {
      CollapseRun(run[1..], rest, true);
    }
  }

  /**
   * `.replace(/[^a-z0-9]+/g, '-')` on a word, a maximal run and the rest:
   * the word is kept and the whole run becomes a single dash.
   */
  lemma CollapseWordRun(w: string, run: string, rest: string)
    requires AllSlugChars(w)
    requires |run| > 0 && NoSlugChars(run) && WordStart(rest)
    ensures Collapse(w + run + rest, false) == w + "-" + Collapse(rest, false)
  {
    assert w + run + rest == w + (run + rest);
    if |w| > 0 {
      CollapseSlugPrefix(w, run + rest, false);
    } else {
      assert w + (run + rest) == run + rest;
    }
    CollapseRun(run, rest, false);
  }

  /** A word of `[a-z0-9]` alone is kept as it is. */
  lemma CollapseWord(w: string, inRun: bool)
    requires AllSlugChars(w)
    ensures Collapse(w, inRun) == w
  {
    if |w| > 0 {
      CollapseSlugPrefix(w, "", inRun);
      assert w + "" == w;
    }
  }

  /** "a.b" keeps both letters with a dash between them. */
  lemma CollapseExample()
    ensures Collapse("a.b", false) == "a-b"
  {
    assert "a.b" == "a" + "." + "b";
    CollapseWordRun("a", ".", "b");
    CollapseWord("b", false);
  }

  lemma CollapseOneChar(c: char, inRun: bool)
    requires IsSlugChar(c)
    ensures Collapse([c], inRun) == [c]
  {
    assert [c][1..] == [];
  }

  lemma CollapseSpaceChar(c: char)
    requires IsSlugChar(c)
    ensures Collapse([' ', c], false) == ['-', c]
  {
    var tail := [' ', c];
    assert tail[1..] == [c];
    CollapseOneChar(c, true);
  }

  lemma CollapseSpaceThenChar(x: string, c: char)
    requires |x| > 0 && forall i :: 0 <= i < |x| ==> IsSlugChar(x[i])
    requires IsSlugChar(c)
    ensures Collapse(x + [' ', c], false) == x + ['-', c]
  {
    CollapseSlugPrefix(x, [' ', c], false);
    CollapseSpaceChar(c);
  }

  /**
   * Cutting at 32 characters can leave a trailing dash: 31 slug characters,
   * a space and one more character end up as the 31 characters and a dash,
   * which the workspace-URL rule still accepts.
   */
  lemma TruncationLeavesDash(x: string, c: char)
    requires |x| == 31 && forall i :: 0 <= i < |x| ==> IsSlugChar(x[i])
    requires IsSlugChar(c)
    ensures Slugify(Some(x + [' ', c])) == x + "-"
    ensures SlugRule(Slugify(Some(x + [' ', c])))
  {
    var s := x + [' ', c];
    assert forall i :: 0 <= i < |s| ==> !IsUpper(s[i]);
    assert Lower(s) == s;
    CollapseSpaceThenChar(x, c);
    var t := x + ['-', c];
    assert !StartsWithDash(t) && !EndsWithDash(t) by {
      assert t[0] == x[0] && t[|t| - 1] == c;
    }
    assert StripEdges(t) == t;
    assert Take32(t) == x + "-" by {
      assert t[..32] == x + "-";
    }
  }

  /** The concrete case: thirty-one `a`s, a space and `b`. */
  lemma TruncationExample()
    ensures Slugify(Some(seq(31, _ => 'a') + " b")) == seq(31, _ => 'a') + "-"
  {
    TruncationLeavesDash(seq(31, _ => 'a'), 'b');
    assert " b" == [' ', 'b'];
  }

  // ---------------------------------------------------------------------
  // Form values and field rules
  // ---------------------------------------------------------------------

  datatype Plan = Starter | Pro | Enterprise

  /** The form's values; every field may be unset. */
  datatype Values = Values(
    org: Option<string>,
    slug: Option<string>,
    size: Option<string>,
    industry: Option<string>,
    email: Option<string>,
    plan: Option<Plan>,
    cardName: Option<string>,
    cardNumber: Option<string>,
    exp: Option<string>,
    cvc: Option<string>,
    accept: Option<bool>,
    coupon: Option<string>)

  /** The initial values: only the plan is set, to Pro. */
  const Initial: Values :=
    Values(None, None, None, None, None, Some(Pro), None, None, None, None, None, None)

  /** `required: true` on a text field: set and not the empty string. */
  predicate Filled(o: Option<string>) {
    o.Some? && o.value != ""
  }

  /** `^[0-9 ]{12,19}$`. */
  predicate CardPattern(s: string) {
    12 <= |s| <= 19 && forall i :: 0 <= i < |s| ==> ('0' <= s[i] <= '9' || s[i] == ' ')
  }

  predicate OrgOk(v: Values) {
    Filled(v.org) && |v.org.value| >= 2
  }

  predicate SlugOk(v: Values) {
    Filled(v.slug) && SlugRule(v.slug.value)
  }

  predicate CardNumberOk(v: Values) {
    Filled(v.cardNumber) && CardPattern(v.cardNumber.value)
  }

  predicate CvcOk(v: Values) {
    Filled(v.cvc) && |v.cvc.value| == 3
  }

  /** The steps of the wizard: Organization, Billing, Confirm. */
  type StepKey = n: int | 0 <= n <= 2

  /**
   * The rules of the fields `stepFields[step]` names. The e-mail format check
   * is the form library's, passed in as `isEmail`.
   */
  predicate StepValid(v: Values, step: StepKey, isEmail: string -> bool) {
    match step
    case 0 => OrgOk(v) && SlugOk(v) && Filled(v.size) && Filled(v.industry)
    case 1 =>
      && Filled(v.email) && isEmail(v.email.value)
      && v.plan.Some?
      && Filled(v.cardName)
      && CardNumberOk(v)
      && Filled(v.exp)
      && CvcOk(v)
    case 2 => v.accept == Some(true)
  }

  /** `clampStep`. */
  function ClampStep(n: int): (r: StepKey)
    ensures 0 <= n <= 2 ==> r == n
    ensures n < 0 ==> r == 0
    ensures n > 2 ==> r == 2
  {
    if n <= 0 then 0 else if n >= 2 then 2 else n
  }

  /** `next`: advance one step when the current step's fields pass their rules. */
  function Next(v: Values, step: StepKey, isEmail: string -> bool): (r: StepKey)
    ensures r != step <==> step < 2 && StepValid(v, step, isEmail)
    ensures r != step ==> r == step + 1
    ensures r == 1 && step == 0 ==> SlugRule(v.slug.value) && |v.org.value| >= 2
    ensures r == 2 && step == 1 ==> CardPattern(v.cardNumber.value) && |v.cvc.value| == 3
  {
    if StepValid(v, step, isEmail) then ClampStep(step + 1) else step
  }

  /** `prev`. */
  function Prev(step: StepKey): (r: StepKey)
    ensures step > 0 ==> r == step - 1
    ensures step == 0 ==> r == 0
  {
    ClampStep(step - 1)
  }

  /** Going back after a successful step returns to the step you came from. */
  lemma PrevAfterNext(v: Values, step: StepKey, isEmail: string -> bool)
    requires step < 2 && StepValid(v, step, isEmail)
    ensures Prev(Next(v, step, isEmail)) == step
  {
  }

  /** `clampStep` is a projection onto the steps. */
  lemma ClampStepIdempotent(n: int)
    ensures ClampStep(ClampStep(n)) == ClampStep(n)
  {
  }

  // ---------------------------------------------------------------------
  // The slug that follows the organisation name
  // ---------------------------------------------------------------------

  predicate HasText(o: Option<string>) {
    o.Some? && |o.value| > 0
  }

  /**
   * `onOrgChange` as written: store the name, and keep the current slug when
   * it is non-empty, else generate one from the name.
   */
  function OrgChangeAsWritten(v: Values, name: string): (r: Values)
    ensures r.org == Some(name)
    ensures HasText(v.slug) ==> r.slug == v.slug
    ensures !HasText(v.slug) ==> r.slug == Some(Slugify(Some(name)))
    ensures r == v.(org := r.org, slug := r.slug)
  {
    v.(org := Some(name), slug := if HasText(v.slug) then v.slug else Some(Slugify(Some(name))))
  }

  /**
   * Typing "A" and then "Ac" into a fresh form leaves the slug "a": the slug
   * generated from the first keystroke is kept from then on, and it is too
   * short for the workspace-URL rule.
   */
  lemma SlugStopsFollowingOrg()
    ensures OrgChangeAsWritten(OrgChangeAsWritten(Initial, "A"), "Ac").slug == Some("a")
    ensures Slugify(Some("Ac")) == "ac"
    ensures !SlugRule("a")
  {
    SlugifyA();
    SlugifyAc();
  }

  lemma SlugifyA()
    ensures Slugify(Some("A")) == "a"
  {
    assert Lower("A") == "a";
    assert "a" == ['a'];
    CollapseOneChar('a', false);
  }

  lemma SlugifyAc()
    ensures Slugify(Some("Ac")) == "ac"
  {
    assert Lower("Ac") == "ac";
    assert "ac" == ['a'] + ['c'];
    CollapseSlugPrefix(['a'], ['c'], false);
    CollapseOneChar('c', false);
  }

  /** The slug was generated from the current name (or is empty): the user has not edited it. */
  predicate SlugIsAutomatic(v: Values) {
    !HasText(v.slug) || v.slug == Some(Slugify(v.org))
  }

  /**
   * `onOrgChange` as evidently intended: the slug follows the name until the
   * user edits it; an edited slug is kept.
   */
  function OrgChange(v: Values, name: string): (r: Values)
    ensures r.org == Some(name)
    ensures SlugIsAutomatic(v) ==> r.slug == Some(Slugify(Some(name)))
    ensures !SlugIsAutomatic(v) ==> r.slug == v.slug
    ensures r == v.(org := r.org, slug := r.slug)
  {
    v.(org := Some(name), slug := if SlugIsAutomatic(v) then Some(Slugify(Some(name))) else v.slug)
  }

  /** Applying a sequence of edits to the organisation field, one keystroke at a time. */
  function TypeOrg(v: Values, edits: seq<string>): Values
    decreases |edits|
  {
    if |edits| == 0 then v else TypeOrg(OrgChange(v, edits[0]), edits[1..])
  }

  /**
   * However the name is typed, an unedited slug is always the slug of the
   * final name.
   */
  lemma {:induction false} SlugFollowsOrg(v: Values, edits: seq<string>)
    requires SlugIsAutomatic(v)
    requires |edits| > 0
    ensures TypeOrg(v, edits).slug == Some(Slugify(Some(edits[|edits| - 1])))
    ensures TypeOrg(v, edits).org == Some(edits[|edits| - 1])
    decreases |edits|
  {
    var w := OrgChange(v, edits[0]);
    assert SlugIsAutomatic(w);
    if |edits| > 1 {
      SlugFollowsOrg(w, edits[1..]);
    }
  }

  /** With the intended rule, typing "A" and then "Ac" gives the slug "ac". */
  lemma SlugFollowsOrgExample()
    ensures TypeOrg(Initial, ["A", "Ac"]).slug == Some("ac")
  {
    SlugFollowsOrg(Initial, ["A", "Ac"]);
    SlugifyAc();
  }
}

=== FILE: query_params.dfy ===
/**
 * The search-parameter store behind `useQueryParams` (src/hooks/useQueryParams.ts).
 *
 * The parameters are the name/value list of a `URLSearchParams` object, kept
 * as a list because the WHATWG URL Standard allows a name to repeat:
 *  - `get(name)` answers the value of the first pair with that name (section 6.2);
 *  - `delete(name)` removes every pair with that name;
 *  - `set(name, value)` rewrites the first pair with that name and removes the
 *    rest, or appends a pair when there is none.
 * The hook's own `get` answers `''` for a missing name, and its `set` deletes
 * the name instead of storing an empty value (the canonical-empty rule).
 */
module QueryParams {

  datatype Param = Param(name: string, value: string)

  type Params = seq<Param>

  predicate Has(p: Params, key: string) {
    exists k :: 0 <= k < |p| && p[k].name == key
  }

  /** `URLSearchParams.get`: the first value under `key`, if any. */
  function Lookup(p: Params, key: string): (r: string)
    ensures !Has(p, key) ==> r == ""
    ensures Has(p, key) ==> exists k :: 0 <= k < |p| && p[k].name == key && r == p[k].value &&
                                          forall j :: 0 <= j < k ==> p[j].name != key
  {
    if |p| == 0 then ""
    else if p[0].name == key then p[0].value
    else
      var r := Lookup(p[1..], key);
      if Has(p[1..], key) then
        var k :| 0 <= k < |p[1..]| && p[1..][k].name == key && r == p[1..][k].value &&
                 forall j :: 0 <= j < k ==> p[1..][j].name != key;
        assert p[k + 1].name == key && r == p[k + 1].value;
        assert forall j :: 0 <= j < k + 1 ==> p[j].name != key by {
          forall j | 0 <= j < k + 1 ensures p[j].name != key {
            if j > 0 { assert p[j] == p[1..][j - 1]; }
          }
        }
        r
      else
        assert !Has(p, key) by {
          forall k | 0 <= k < |p| ensures p[k].name != key {
            if k > 0 { assert p[k] == p[1..][k - 1]; }
          }
        }
        r
  }

  /** The number of pairs named `key`. */
  function Count(p: Params, key: string): nat {
    if |p| == 0 then 0 else (if p[0].name == key then 1 else 0) + Count(p[1..], key)
  }

  /** `URLSearchParams.delete`: every pair named `key` goes; the others keep their order. */
  function Delete(p: Params, key: string): (r: Params)
    ensures !Has(r, key)
    ensures Count(r, key) == 0
    ensures forall k :: 0 <= k < |r| ==> r[k] in p
    ensures |r| <= |p|
  {
    if |p| == 0 then []
    else if p[0].name == key then Delete(p[1..], key)
    else [p[0]] + Delete(p[1..], key)
  }

  /**
   * `URLSearchParams.set`: the first pair named `key` takes the new value and
   * the later ones go; with no such pair, one is appended.
   */
  function Replace(p: Params, key: string, value: string): (r: Params)
    ensures Count(r, key) == 1
    ensures Lookup(r, key) == value
  {
    if |p| == 0 then [Param(key, value)]
    else if p[0].name == key then [Param(key, value)] + Delete(p[1..], key)
    else [p[0]] + Replace(p[1..], key, value)
  }

  /** The hook's `get`: a missing name reads as `''`. */
  function Get(p: Params, key: string): string {
    Lookup(p, key)
  }

  /** The hook's `set`: an empty value deletes the name, anything else replaces it. */
  function Set(p: Params, key: string, value: string): (r: Params)
    ensures Get(r, key) == value
    ensures value == "" ==> !Has(r, key)
    ensures Count(r, key) <= 1
  {
    if value == "" then Delete(p, key) else Replace(p, key, value)
  }

  // ---------------------------------------------------------------------
  // Properties of the hook
  // ---------------------------------------------------------------------

  /** `get` of a name that is not there is `''`. */
  lemma GetAbsent(p: Params, key: string)
    requires !Has(p, key)
    ensures Get(p, key) == ""
  {
  }

  lemma {:induction false} DeleteOtherKey(p: Params, key: string, other: string)
    requires other != key
    ensures Lookup(Delete(p, key), other) == Lookup(p, other)
  {
    if |p| > 0 {
      DeleteOtherKey(p[1..], key, other);
    }
  }

  lemma {:induction false} ReplaceOtherKey(p: Params, key: string, value: string, other: string)
    requires other != key
    ensures Lookup(Replace(p, key, value), other) == Lookup(p, other)
  {
    if |p| > 0 {
      if p[0].name == key {
        DeleteOtherKey(p[1..], key, other);
      } else {
        ReplaceOtherKey(p[1..], key, value, other);
      }
    }
  }

  /** Writing one name leaves what every other name reads unchanged. */
  lemma SetOtherKey(p: Params, key: string, value: string, other: string)
    requires other != key
    ensures Get(Set(p, key, value), other) == Get(p, other)
  {
    if value == "" {
      DeleteOtherKey(p, key, other);
    } else {
      ReplaceOtherKey(p, key, value, other);
    }
  }

  lemma {:induction false} DeleteTwice(p: Params, key: string)
    ensures Delete(Delete(p, key), key) == Delete(p, key)
  {
    if |p| > 0 {
      DeleteTwice(p[1..], key);
    }
  }

  lemma {:induction false} DeleteAbsent(p: Params, key: string)
    requires !Has(p, key)
    ensures Delete(p, key) == p
  {
    if |p| > 0 {
      assert forall k :: 0 <= k < |p[1..]| ==> p[1..][k] == p[k + 1];
      DeleteAbsent(p[1..], key);
      assert p == [p[0]] + p[1..];
    }
  }

  lemma {:induction false} ReplaceTwice(p: Params, key: string, value: string)
    ensures Replace(Replace(p, key, value), key, value) == Replace(p, key, value)
  {
    if |p| > 0 {
      if p[0].name == key {
        var d := Delete(p[1..], key);
        DeleteAbsent(d, key);
        assert Replace(p, key, value) == [Param(key, value)] + d;
        assert ([Param(key, value)] + d)[1..] == d;
      } else {
        ReplaceTwice(p[1..], key, value);
      }
    }
  }

  /** Setting the same value twice is the same as setting it once. */
  lemma SetIdempotent(p: Params, key: string, value: string)
    ensures Set(Set(p, key, value), key, value) == Set(p, key, value)
  {
    if value == "" {
      DeleteTwice(p, key);
    } else {
      ReplaceTwice(p, key, value);
    }
  }

  lemma {:induction false} DeleteAfterReplace(p: Params, key: string, value: string)
    ensures Delete(Replace(p, key, value), key) == Delete(p, key)
  {
    if |p| > 0 {
      if p[0].name == key {
        DeleteTwice(p[1..], key);
      } else {
        DeleteAfterReplace(p[1..], key, value);
      }
    }
  }

  /**
   * Apart from the pairs named `key`, the list is untouched: the same other
   * pairs in the same order.
   */
  lemma SetKeepsOthers(p: Params, key: string, value: string)
    ensures Delete(Set(p, key, value), key) == Delete(p, key)
  {
    if value == "" {
      DeleteTwice(p, key);
    } else {
      DeleteAfterReplace(p, key, value);
    }
  }
}

=== FILE: seed.dfy ===
/** The seed data served by the mock API (src/data/seed). */
module Seed {

  import opened Wrappers
  import opened Types

  const CoverUrl := "https://postimg.cc/Dm3cqnBQ"

  /** `componentDemos`, in seed order. */
  const ComponentDemos: seq<Item> := [
    Item("comp-card", "Card", DataDisplay, Basic, ["elevation", "tokens"], CoverUrl,
         Some(Updated), Some("On-brand surface with gradient border.")),
    Item("comp-data-table", "Data Table", DataDisplay, Advanced, ["virtualized", "sortable", "filterable"], CoverUrl,
         Some(New), Some("High-performance table with sorting and filtering.")),
    Item("comp-stepper", "Form Stepper", Forms, Intermediate, ["async", "validation"], CoverUrl,
         Some(Updated), Some("Multi-step form pattern with validation and async edges."))
  ]

  /** `projects`. */
  const Projects: seq<Project> := [
    Project(
      "teams-hq",
      "Teams HQ — SaaS Analytics Admin",
      "Token-driven theming, complex tables, async forms, charts, and a11y-first UX.",
      ["Design System", "React Query + MSW", "Virtualized Table", "WCAG patterns"],
      ["Next.js", "TypeScript", "Tailwind", "Radix"],
      "/mock-imgs/paws-hero.png",
      None,
      Some("https://github.com/you/teams-hq"),
      ["comp-card", "comp-data-table", "comp-stepper"],
      [Kpi("k1", "TTI (ms)", 1100.0, Some(-12.0)), Kpi("k2", "CLS", 0.02, None), Kpi("k3", "Lighthouse UI", 98.0, None)])
  ]

  /** `kpis` of the dashboard seed. */
  const Kpis: seq<Kpi> := [
    Kpi("users", "Active Users", 12450.0, Some(8.3)),
    Kpi("retention", "30d Retention %", 41.2, Some(1.4)),
    Kpi("nps", "NPS", 62.0, Some(3.0))
  ]
}

=== FILE: seqs.dfy ===
/** `Array.prototype.filter` and the order-preserving subsequence relation. */
module Seqs {

  /** `s.filter(p)`: the elements satisfying `p`, in their original order. */
  function Filter<T(==)>(s: seq<T>, p: T -> bool): (r: seq<T>)
    ensures |r| <= |s|
    ensures forall k :: 0 <= k < |r| ==> r[k] in s && p(r[k])
    ensures forall k :: 0 <= k < |s| && p(s[k]) ==> s[k] in r
  {
    if |s| == 0 then [] else (if p(s[0]) then [s[0]] else []) + Filter(s[1..], p)
  }

  /** `a` is obtained from `b` by deleting elements, without reordering. */
  predicate IsSubseq<T(==)>(a: seq<T>, b: seq<T>)
    decreases |b|
  {
    |a| == 0 || (|b| > 0 && (if a[0] == b[0] then IsSubseq(a[1..], b[1..]) else IsSubseq(a, b[1..])))
  }

  predicate NoDuplicates<T(==)>(s: seq<T>) {
    forall i, j :: 0 <= i < j < |s| ==> s[i] != s[j]
  }

  lemma {:induction false} SubseqLength<T>(a: seq<T>, b: seq<T>)
    requires IsSubseq(a, b)
    ensures |a| <= |b|
    decreases |b|
  {
    if |a| > 0 {
      if a[0] == b[0] { SubseqLength(a[1..], b[1..]); } else { SubseqLength(a, b[1..]); }
    }
  }

  lemma {:induction false} SubseqRefl<T>(a: seq<T>)
    ensures IsSubseq(a, a)
    decreases |a|
  {
    if |a| > 0 { SubseqRefl(a[1..]); }
  }

  /** Dropping the first element of a subsequence keeps it a subsequence. */
  lemma {:induction false} SubseqTail<T>(a: seq<T>, b: seq<T>)
    requires |a| > 0 && IsSubseq(a, b)
    ensures IsSubseq(a[1..], b)
    decreases |b|, 0
  {
    if a[0] == b[0] {
      SubseqSkip(a[1..], b[1..], b[0]);
      assert b == [b[0]] + b[1..];
    } else {
      SubseqTail(a, b[1..]);
      SubseqSkip(a[1..], b[1..], b[0]);
      assert b == [b[0]] + b[1..];
    }
  }

  /** A subsequence of `b` is a subsequence of `[y] + b`. */
  lemma {:induction false} SubseqSkip<T>(a: seq<T>, b: seq<T>, y: T)
    requires IsSubseq(a, b)
    ensures IsSubseq(a, [y] + b)
    decreases |b|, 1
  {
    var yb := [y] + b;
    assert yb[1..] == b;
    if |a| > 0 && a[0] == y {
      SubseqTail(a, b);
    }
  }

  lemma {:induction false} FilterIsSubseq<T>(s: seq<T>, p: T -> bool)
    ensures IsSubseq(Filter(s, p), s)
    decreases |s|
  {
    if |s| > 0 {
      FilterIsSubseq(s[1..], p);
      if p(s[0]) {
        assert Filter(s, p) == [s[0]] + Filter(s[1..], p);
        assert Filter(s, p)[1..] == Filter(s[1..], p);
      } else {
        assert Filter(s, p) == Filter(s[1..], p);
        SubseqSkip(Filter(s[1..], p), s[1..], s[0]);
        assert [s[0]] + s[1..] == s;
      }
    }
  }

  /** Strengthening the predicate can only drop elements. */
  lemma {:induction false} FilterMonotone<T>(s: seq<T>, p: T -> bool, q: T -> bool)
    requires forall x :: x in s && p(x) ==> q(x)
    ensures IsSubseq(Filter(s, p), Filter(s, q))
    decreases |s|
  {
    if |s| > 0 {
      FilterMonotone(s[1..], p, q);
      var fp, fq := Filter(s[1..], p), Filter(s[1..], q);
      if p(s[0]) {
        assert Filter(s, p) == [s[0]] + fp;
        assert Filter(s, q) == [s[0]] + fq;
        assert ([s[0]] + fp)[1..] == fp && ([s[0]] + fq)[1..] == fq;
      } else if q(s[0]) {
        assert Filter(s, p) == fp;
        assert Filter(s, q) == [s[0]] + fq;
        SubseqSkip(fp, fq, s[0]);
      } else {
        assert Filter(s, p) == fp && Filter(s, q) == fq;
      }
    }
  }

  lemma {:induction false} FilterAll<T>(s: seq<T>, p: T -> bool)
    requires forall x :: x in s ==> p(x)
    ensures Filter(s, p) == s
    decreases |s|
  {
    if |s| > 0 {
      FilterAll(s[1..], p);
      assert s == [s[0]] + s[1..];
    }
  }

  lemma {:induction false} FilterSame<T>(s: seq<T>, p: T -> bool, q: T -> bool)
    requires forall x :: x in s ==> p(x) == q(x)
    ensures Filter(s, p) == Filter(s, q)
    decreases |s|
  {
    if |s| > 0 {
      FilterSame(s[1..], p, q);
    }
  }

  lemma FilterCons<T>(x: T, s: seq<T>, p: T -> bool)
    ensures Filter([x] + s, p) == (if p(x) then [x] else []) + Filter(s, p)
  {
    assert ([x] + s)[1..] == s;
  }

  lemma {:induction false} FilterAppend<T>(a: seq<T>, b: seq<T>, p: T -> bool)
    ensures Filter(a + b, p) == Filter(a, p) + Filter(b, p)
    decreases |a|
  {
    if |a| > 0 {
      assert (a + b)[1..] == a[1..] + b;
      FilterAppend(a[1..], b, p);
    } else {
      assert a + b == b;
    }
  }

  /** Keeping some elements of a duplicate-free list keeps it duplicate-free. */
  lemma {:induction false} FilterNoDuplicates<T>(s: seq<T>, p: T -> bool)
    requires NoDuplicates(s)
    ensures NoDuplicates(Filter(s, p))
    decreases |s|
  {
    if |s| > 0 {
      FilterNoDuplicates(s[1..], p);
      var rest := Filter(s[1..], p);
      if p(s[0]) {
        assert s[0] !in s[1..] by {
          forall k | 0 <= k < |s[1..]| ensures s[1..][k] != s[0] {
            assert s[1..][k] == s[k + 1];
          }
        }
        assert s[0] !in rest;
        var r := [s[0]] + rest;
        forall i, j | 0 <= i < j < |r| ensures r[i] != r[j] {
          if i > 0 {
            assert r[i] == rest[i - 1] && r[j] == rest[j - 1];
          } else {
            assert r[j] == rest[j - 1];
          }
        }
      }
    }
  }

  /** In a duplicate-free list every value occurs at most once. */
  lemma {:induction false} NoDuplicatesCount<T>(s: seq<T>, x: T)
    requires NoDuplicates(s)
    ensures multiset(s)[x] <= 1
    decreases |s|
  {
    if |s| > 0 {
      assert s == [s[0]] + s[1..];
      assert NoDuplicates(s[1..]) by {
        forall i, j | 0 <= i < j < |s[1..]| ensures s[1..][i] != s[1..][j] {
          assert s[1..][i] == s[i + 1] && s[1..][j] == s[j + 1];
        }
      }
      NoDuplicatesCount(s[1..], x);
      if x == s[0] {
        assert x !in s[1..] by {
          forall k | 0 <= k < |s[1..]| ensures s[1..][k] != x {
            assert s[1..][k] == s[k + 1];
          }
        }
      }
    }
  }

  /** A rearrangement of a duplicate-free list is duplicate-free. */
  lemma PermutationNoDuplicates<T>(r: seq<T>, s: seq<T>)
    requires multiset(r) == multiset(s)
    requires NoDuplicates(s)
    ensures NoDuplicates(r)
  {
    forall i, j | 0 <= i < j < |r| ensures r[i] != r[j] {
      if r[i] == r[j] {
        assert r == r[..j] + r[j..];
        assert r[i] in r[..j] && r[j] in r[j..];
        assert multiset(r)[r[i]] >= 2;
        NoDuplicatesCount(s, r[i]);
      }
    }
  }
}

=== FILE: showcase.dfy ===
/**
 * The showcase landing page (src/app/showcase/page.tsx): six tiles, a
 * category segment and a free-text search. A tile is shown when it is in the
 * chosen category (or the category is "All") and, unless the search box holds
 * only white space, its title, description and tags joined by spaces contain
 * the search text, both lower-cased.
 *
 * The emptiness test trims the query but the match does not: " forms" is a
 * live query that is looked for with its leading space.
 */
module Showcase {

  import opened Strings
  import opened Seqs
  import opened Wrappers
  import opened Types

  datatype TileCategory = Product | DataViz | Forms | Theming | A11y | Motion {
    /** The category's label as the segment shows it. */
    function Name(): string {
      match this
      case Product => "Product"
      case DataViz => "Data Viz"
      case Forms => "Forms"
      case Theming => "Theming"
      case A11y => "A11y"
      case Motion => "Motion"
    }
  }

  /** A tile; the icon is presentation only and is left out. */
  datatype Tile = Tile(
    href: string,
    title: string,
    desc: string,
    tags: seq<string>,
    category: TileCategory,
    status: Option<Status>)

  const Tiles: seq<Tile> := [
    Tile("/showcase/dashboards", "Dashboards", "KPIs, charts, and insights.",
         ["Charts", "KPIs", "Cards"], DataViz, Some(Updated)),
    Tile("/showcase/components", "Components", "Reusable UI, themed & accessible.",
         ["Buttons", "Tables", "Patterns"], Product, None),
    Tile("/showcase/forms", "Forms", "Multi-step, validation, async UX.",
         ["Validation", "Steps", "Async"], TileCategory.Forms, Some(New)),
    Tile("/showcase/theming", "Theming", "Tokens + dark / light in one place.",
         ["Tokens", "Dark/Light"], Theming, None),
    Tile("/showcase/accessibility", "Accessibility", "WCAG-friendly patterns.",
         ["Focus", "Landmarks"], A11y, None),
    Tile("/showcase/motion", "Motion", "Micro-interactions and presence.",
         ["Transitions", "Presence"], Motion, None)
  ]

  /** The segment's options: "All" followed by the six category labels. */
  const SegmentOptions: seq<string> := ["All", "Product", "Data Viz", "Forms", "Theming", "A11y", "Motion"]

  /** The text a query is matched against. */
  function TileText(t: Tile): string {
    Join([t.title, t.desc, Join(t.tags, " ")], " ")
  }

  predicate ByCategory(cat: string, t: Tile) {
    cat == "All" || t.category.Name() == cat
  }

  predicate ByQuery(q: string, t: Tile) {
    |Trim(q)| == 0 || Contains(Lower(TileText(t)), Lower(q))
  }

  function Keeps(q: string, cat: string): Tile -> bool {
    (t: Tile) => ByCategory(cat, t) && ByQuery(q, t)
  }

  /** `filtered`: the tiles passing both tests, in their listed order. */
  function FilterTiles(q: string, cat: string): (r: seq<Tile>)
    ensures IsSubseq(r, Tiles)
    ensures forall t :: t in r <==> t in Tiles && ByCategory(cat, t) && ByQuery(q, t)
  {
    FilterIsSubseq(Tiles, Keeps(q, cat));
    Filter(Tiles, Keeps(q, cat))
  }

  // ---------------------------------------------------------------------
  // Properties of the filter
  // ---------------------------------------------------------------------

  /** Every label the segment offers other than "All" is the label of some tile category, and back. */
  lemma SegmentCoversCategories()
    ensures forall c: TileCategory :: c.Name() in SegmentOptions
    ensures forall s :: s in SegmentOptions && s != "All" ==> exists c: TileCategory :: c.Name() == s
  {
    assert Product.Name() == SegmentOptions[1];
    assert DataViz.Name() == SegmentOptions[2];
    assert TileCategory.Forms.Name() == SegmentOptions[3];
    assert Theming.Name() == SegmentOptions[4];
    assert A11y.Name() == SegmentOptions[5];
    assert Motion.Name() == SegmentOptions[6];
  }

  /** A query of white space only filters nothing: it acts as the empty query. */
  lemma BlankQueryIsNoQuery(q: string, cat: string)
    requires Blank(q)
    ensures FilterTiles(q, cat) == FilterTiles("", cat)
  {
    TrimEmptyIffBlank(q);
    TrimEmptyIffBlank("");
    FilterSame(Tiles, Keeps(q, cat), Keeps("", cat));
  }

  /** With "All" and a blank query, every tile is shown in its listed order. */
  lemma BlankQueryAllShowsEverything(q: string)
    requires Blank(q)
    ensures FilterTiles(q, "All") == Tiles
  {
    TrimEmptyIffBlank(q);
    FilterAll(Tiles, Keeps(q, "All"));
  }

  /** Choosing a category can only narrow what the same query shows under "All". */
  lemma CategoryNarrows(q: string, cat: string)
    ensures IsSubseq(FilterTiles(q, cat), FilterTiles(q, "All"))
    ensures forall t :: t in FilterTiles(q, cat) && cat != "All" ==> t.category.Name() == cat
  {
    FilterMonotone(Tiles, Keeps(q, cat), Keeps(q, "All"));
  }

  lemma LowerIdempotent(s: string)
    ensures Lower(Lower(s)) == Lower(s)
  {
  }

  /** Lower-casing can neither make nor unmake white space. */
  lemma LowerKeepsBlank(s: string)
    ensures Blank(Lower(s)) <==> Blank(s)
  {
    forall i | 0 <= i < |s| ensures IsSpace(Lower(s)[i]) <==> IsSpace(s[i]) {
    }
  }

  /** The search ignores letter case: a query and its lower-cased form show the same tiles. */
  lemma QueryIgnoresCase(q: string, cat: string)
    ensures FilterTiles(Lower(q), cat) == FilterTiles(q, cat)
  {
    LowerKeepsBlank(q);
    TrimEmptyIffBlank(q);
    TrimEmptyIffBlank(Lower(q));
    LowerIdempotent(q);
    FilterSame(Tiles, Keeps(Lower(q), cat), Keeps(q, cat));
  }
}

=== FILE: stable_sort.dfy ===
/**
 * `Array.prototype.sort` with a comparator. Section 23.1.3.30 of ECMA-262
 * (2023 edition) requires the sort to be stable, and for a consistent
 * comparator it therefore has exactly one possible result: the sequence that
 * is ordered by the comparator and keeps every group of comparator-equal
 * elements in input order. `le(a, b)` stands for `compare(a, b) <= 0`.
 *
 * `Sort` is an insertion sort; `SortIsTheStableSort` shows that every
 * ordered, stable rearrangement of the input equals its result.
 */
module StableSort {

  /** One instance of transitivity; named so that it is used only where a proof asks for it. */
  predicate Chain<T>(le: (T, T) -> bool, a: T, b: T, c: T) {
    le(a, b) && le(b, c) ==> le(a, c)
  }

  /** `le` is total and transitive: the comparator is consistent. */
  ghost predicate TotalPreorder<T(!new)>(le: (T, T) -> bool) {
    && (forall a, b :: le(a, b) || le(b, a))
    && (forall a, b, c {:trigger Chain(le, a, b, c)} :: Chain(le, a, b, c))
  }

  lemma LeTrans<T(!new)>(le: (T, T) -> bool, a: T, b: T, c: T)
    requires TotalPreorder(le)
    requires le(a, b) && le(b, c)
    ensures le(a, c)
  {
    assert Chain(le, a, b, c);
  }

  /** `a` and `b` compare equal. */
  predicate Equiv<T>(le: (T, T) -> bool, a: T, b: T) {
    le(a, b) && le(b, a)
  }

  predicate Sorted<T>(s: seq<T>, le: (T, T) -> bool) {
    forall i, j :: 0 <= i < j < |s| ==> le(s[i], s[j])
  }

  /** The elements of `s` that compare equal to `z`, in their order in `s`. */
  function ClassOf<T>(s: seq<T>, le: (T, T) -> bool, z: T): seq<T>
    decreases |s|
  {
    if |s| == 0 then [] else (if Equiv(le, s[0], z) then [s[0]] else []) + ClassOf(s[1..], le, z)
  }

  /** Every group of comparator-equal elements appears in `r` in the same order as in `s`. */
  ghost predicate SameClasses<T(!new)>(r: seq<T>, s: seq<T>, le: (T, T) -> bool) {
    forall z :: ClassOf(r, le, z) == ClassOf(s, le, z)
  }

  lemma {:induction false} ClassOfAppend<T>(a: seq<T>, b: seq<T>, le: (T, T) -> bool, z: T)
    ensures ClassOf(a + b, le, z) == ClassOf(a, le, z) + ClassOf(b, le, z)
    decreases |a|
  {
    if |a| == 0 {
      assert a + b == b;
    } else {
      var ab := a + b;
      var p := if Equiv(le, a[0], z) then [a[0]] else [];
      assert ab[0] == a[0];
      assert ab[1..] == a[1..] + b;
      ClassOfAppend(a[1..], b, le, z);
      assert ClassOf(ab, le, z) == p + (ClassOf(a[1..], le, z) + ClassOf(b, le, z));
      assert ClassOf(a, le, z) == p + ClassOf(a[1..], le, z);
    }
  }

  lemma {:induction false} ClassOfNone<T>(s: seq<T>, le: (T, T) -> bool, z: T)
    requires forall k :: 0 <= k < |s| ==> !Equiv(le, s[k], z)
    ensures ClassOf(s, le, z) == []
    decreases |s|
  {
    if |s| > 0 {
      ClassOfNone(s[1..], le, z);
    }
  }

  lemma {:induction false} ClassOfMembers<T>(s: seq<T>, le: (T, T) -> bool, z: T)
    ensures forall k :: 0 <= k < |ClassOf(s, le, z)| ==> ClassOf(s, le, z)[k] in s
    ensures forall k :: 0 <= k < |s| && Equiv(le, s[k], z) ==> s[k] in ClassOf(s, le, z)
    decreases |s|
  {
    if |s| > 0 {
      ClassOfMembers(s[1..], le, z);
      var c := ClassOf(s, le, z);
      var t := ClassOf(s[1..], le, z);
      assert c == (if Equiv(le, s[0], z) then [s[0]] else []) + t;
      forall k | 0 <= k < |s| && Equiv(le, s[k], z) ensures s[k] in c {
        if k > 0 { assert s[k] == s[1..][k - 1]; }
      }
    }
  }

  lemma ClassOfHead<T(!new)>(s: seq<T>, le: (T, T) -> bool)
    requires TotalPreorder(le)
    requires |s| > 0
    ensures ClassOf(s, le, s[0]) != []
  {
    assert le(s[0], s[0]);
  }

  /**
   * Put `x` after every leading element of `r` that compares at most equal to
   * it; in a sorted `r` that is behind all elements it ties with, which is
   * what stability asks.
   */
  function Insert<T>(r: seq<T>, x: T, le: (T, T) -> bool): (res: seq<T>)
    ensures multiset(res) == multiset(r) + multiset{x}
    decreases |r|
  {
    if |r| == 0 then [x]
    else if le(r[0], x) then
      assert r == [r[0]] + r[1..];
      [r[0]] + Insert(r[1..], x, le)
    else [x] + r
  }

  lemma {:induction false} InsertSorted<T(!new)>(r: seq<T>, x: T, le: (T, T) -> bool)
    requires TotalPreorder(le)
    requires Sorted(r, le)
    ensures Sorted(Insert(r, x, le), le)
    decreases |r|
  {
    var res := Insert(r, x, le);
    if |r| == 0 {
    } else if le(r[0], x) {
      var tail := Insert(r[1..], x, le);
      InsertSorted(r[1..], x, le);
      assert res == [r[0]] + tail;
      forall y | y in multiset(tail) ensures le(r[0], y) {
        if y != x {
          assert y in multiset(r[1..]);
          var k :| 0 <= k < |r[1..]| && r[1..][k] == y;
          assert r[k + 1] == y;
        }
      }
      forall i, j | 0 <= i < j < |res| ensures le(res[i], res[j]) {
        if i == 0 {
          assert res[j] == tail[j - 1];
          assert res[j] in multiset(tail);
        } else {
          assert res[i] == tail[i - 1] && res[j] == tail[j - 1];
        }
      }
    } else {
      assert res == [x] + r;
      assert le(x, r[0]);
      forall i, j | 0 <= i < j < |res| ensures le(res[i], res[j]) {
        if i == 0 {
          assert res[j] == r[j - 1];
          if j > 1 { LeTrans(le, x, r[0], r[j - 1]); }
        } else {
          assert res[i] == r[i - 1] && res[j] == r[j - 1];
        }
      }
    }
  }

  lemma {:induction false} InsertClasses<T(!new)>(r: seq<T>, x: T, le: (T, T) -> bool, z: T)
    requires TotalPreorder(le)
    requires Sorted(r, le)
    ensures ClassOf(Insert(r, x, le), le, z) == ClassOf(r, le, z) + (if Equiv(le, x, z) then [x] else [])
    decreases |r|, 1
  {
    if |r| == 0 {
      assert [x][1..] == [];
    } else if le(r[0], x) {
      InsertBehindClasses(r, x, le, z);
    } else {
      InsertInFrontClasses(r, x, le, z);
    }
  }

  /** `x` goes behind the head of a sorted `r` when the head precedes it; the head's class is untouched. */
  lemma {:induction false} InsertBehindClasses<T(!new)>(r: seq<T>, x: T, le: (T, T) -> bool, z: T)
    requires TotalPreorder(le)
    requires Sorted(r, le)
    requires |r| > 0 && le(r[0], x)
    ensures ClassOf(Insert(r, x, le), le, z) == ClassOf(r, le, z) + (if Equiv(le, x, z) then [x] else [])
    decreases |r|, 0
  {
    var t := Insert(r[1..], x, le);
    var head := if Equiv(le, r[0], z) then [r[0]] else [];
    var tail := if Equiv(le, x, z) then [x] else [];
    SortedTail(r, le);
    InsertClasses(r[1..], x, le, z);
    InsertBehind(r, x, le);
    ClassOfCons(r[0], t, le, z);
    calc {
      ClassOf(Insert(r, x, le), le, z);
      head + ClassOf(t, le, z);
      head + (ClassOf(r[1..], le, z) + tail);
      (head + ClassOf(r[1..], le, z)) + tail;
      ClassOf(r, le, z) + tail;
    }
  }

  lemma SortedTail<T>(r: seq<T>, le: (T, T) -> bool)
    requires |r| > 0 && Sorted(r, le)
    ensures Sorted(r[1..], le)
  {
    forall i, j | 0 <= i < j < |r| - 1 ensures le(r[1..][i], r[1..][j]) {
      assert r[1..][i] == r[i + 1] && r[1..][j] == r[j + 1];
    }
  }

  lemma InsertBehind<T>(r: seq<T>, x: T, le: (T, T) -> bool)
    requires |r| > 0 && le(r[0], x)
    ensures Insert(r, x, le) == [r[0]] + Insert(r[1..], x, le)
  {
  }

  lemma ClassOfCons<T>(h: T, t: seq<T>, le: (T, T) -> bool, z: T)
    ensures ClassOf([h] + t, le, z) == (if Equiv(le, h, z) then [h] else []) + ClassOf(t, le, z)
  {
    assert ([h] + t)[1..] == t;
  }

  /** `x` goes in front of a sorted `r` only when it precedes all of it, so it ties with none of it. */
  lemma InsertInFrontClasses<T(!new)>(r: seq<T>, x: T, le: (T, T) -> bool, z: T)
    requires TotalPreorder(le)
    requires Sorted(r, le)
    requires |r| > 0 && !le(r[0], x)
    ensures ClassOf([x] + r, le, z) == ClassOf(r, le, z) + (if Equiv(le, x, z) then [x] else [])
  {
    assert ([x] + r)[1..] == r;
    if Equiv(le, x, z) {
      forall k | 0 <= k < |r| ensures !le(r[k], z) {
        // r[0] <= r[k]; if r[k] <= z <= x then r[0] <= x, which the guard excludes
        assert Chain(le, r[k], z, x);
        if k > 0 {
          assert le(r[0], r[k]);
          assert Chain(le, r[0], r[k], x);
        }
      }
      ClassOfNone(r, le, z);
    }
  }

  /** The stable sort of `s` under the comparator `le`. */
  function Sort<T(!new)>(s: seq<T>, le: (T, T) -> bool): (r: seq<T>)
    requires TotalPreorder(le)
    ensures multiset(r) == multiset(s)
    ensures Sorted(r, le)
    ensures SameClasses(r, s, le)
    decreases |s|
  {
    if |s| == 0 then
      []
    else
      var init, x := s[..|s| - 1], s[|s| - 1];
      var sorted := Sort(init, le);
      var r := Insert(sorted, x, le);
      assert s == init + [x];
      InsertSorted(sorted, x, le);
      assert SameClasses(r, s, le) by {
        forall z ensures ClassOf(r, le, z) == ClassOf(s, le, z) {
          InsertClasses(sorted, x, le, z);
          ClassOfAppend(init, [x], le, z);
          assert ClassOf([x], le, z) == (if Equiv(le, x, z) then [x] else []) by {
            assert [x][1..] == [];
          }
        }
      }
      r
  }

  /**
   * There is only one ordered, stable rearrangement: any `r` that is sorted and
   * keeps every tie group of `s` in order is `Sort(s, le)`.
   */
  lemma SortIsTheStableSort<T(!new)>(r: seq<T>, s: seq<T>, le: (T, T) -> bool)
    requires TotalPreorder(le)
    requires Sorted(r, le) && SameClasses(r, s, le)
    ensures r == Sort(s, le)
  {
    SortedSameClassesEqual(r, Sort(s, le), le);
  }

  lemma {:induction false} SortedSameClassesEqual<T(!new)>(r1: seq<T>, r2: seq<T>, le: (T, T) -> bool)
    requires TotalPreorder(le)
    requires Sorted(r1, le) && Sorted(r2, le)
    requires forall z :: ClassOf(r1, le, z) == ClassOf(r2, le, z)
    ensures r1 == r2
    decreases |r1|
  {
    SameEmptiness(r1, r2, le);
    if |r1| > 0 {
      SameHeads(r1, r2, le);
      SameTailClasses(r1, r2, le);
      assert Sorted(r1[1..], le) && Sorted(r2[1..], le);
      SortedSameClassesEqual(r1[1..], r2[1..], le);
      assert r1 == [r1[0]] + r1[1..] && r2 == [r2[0]] + r2[1..];
    }
  }

  lemma SameEmptiness<T(!new)>(r1: seq<T>, r2: seq<T>, le: (T, T) -> bool)
    requires TotalPreorder(le)
    requires forall z :: ClassOf(r1, le, z) == ClassOf(r2, le, z)
    ensures |r1| == 0 <==> |r2| == 0
  {
    if |r1| > 0 {
      ClassOfHead(r1, le);
      assert ClassOf(r2, le, r1[0]) != [];
    }
    if |r2| > 0 {
      ClassOfHead(r2, le);
      assert ClassOf(r1, le, r2[0]) != [];
    }
  }

  lemma SameTailClasses<T>(r1: seq<T>, r2: seq<T>, le: (T, T) -> bool)
    requires |r1| > 0 && |r2| > 0 && r1[0] == r2[0]
    requires forall z :: ClassOf(r1, le, z) == ClassOf(r2, le, z)
    ensures forall z :: ClassOf(r1[1..], le, z) == ClassOf(r2[1..], le, z)
  {
    forall z ensures ClassOf(r1[1..], le, z) == ClassOf(r2[1..], le, z) {
      DropCommonHead(r1, r2, le, z);
    }
  }

  lemma DropCommonHead<T>(r1: seq<T>, r2: seq<T>, le: (T, T) -> bool, z: T)
    requires |r1| > 0 && |r2| > 0 && r1[0] == r2[0]
    requires ClassOf(r1, le, z) == ClassOf(r2, le, z)
    ensures ClassOf(r1[1..], le, z) == ClassOf(r2[1..], le, z)
  {
    var p := if Equiv(le, r1[0], z) then [r1[0]] else [];
    var c := ClassOf(r1, le, z);
    assert c == p + ClassOf(r1[1..], le, z);
    assert c == p + ClassOf(r2[1..], le, z);
    assert ClassOf(r1[1..], le, z) == c[|p|..];
  }

  /** Two sorted sequences with the same tie groups start with the same element. */
  lemma SameHeads<T(!new)>(r1: seq<T>, r2: seq<T>, le: (T, T) -> bool)
    requires TotalPreorder(le)
    requires |r1| > 0 && |r2| > 0
    requires Sorted(r1, le) && Sorted(r2, le)
    requires forall z :: ClassOf(r1, le, z) == ClassOf(r2, le, z)
    ensures r1[0] == r2[0]
  {
    var a, b := r1[0], r2[0];
    assert le(a, a) && le(b, b);
    ClassOfMembers(r1, le, b);
    ClassOfMembers(r2, le, a);
    assert ClassOf(r1, le, b) == ClassOf(r2, le, b);
    assert ClassOf(r1, le, a) == ClassOf(r2, le, a);
    assert b in ClassOf(r2, le, b);
    var i :| 0 <= i < |r1| && r1[i] == b;
    assert le(a, b) by { if i > 0 { assert le(r1[0], r1[i]); } }
    assert a in ClassOf(r1, le, a);
    var j :| 0 <= j < |r2| && r2[j] == a;
    assert le(b, a) by { if j > 0 { assert le(r2[0], r2[j]); } }
    assert ClassOf(r1, le, a)[0] == a;
    assert ClassOf(r2, le, a)[0] == b;
  }

  /** Sorting a sorted result again changes nothing. */
  lemma SortIdempotent<T(!new)>(s: seq<T>, le: (T, T) -> bool)
    requires TotalPreorder(le)
    ensures Sort(Sort(s, le), le) == Sort(s, le)
  {
    var r := Sort(s, le);
    SortIsTheStableSort(r, r, le);
  }
}

=== FILE: strings.dfy ===
/**
 * The string primitives the pages rely on, with the JavaScript behaviour the
 * model commits to:
 *  - `toLowerCase` folds the ASCII letters A-Z only;
 *  - `localeCompare` is lexicographic order on character codes;
 *  - `trim` strips the ECMAScript WhiteSpace and LineTerminator characters;
 *  - `split` and `join` on a one-character separator;
 *  - `indexOf` / `includes` on substrings.
 */
module Strings {

  import opened Wrappers

  // ---------------------------------------------------------------------
  // Case folding
  // ---------------------------------------------------------------------

  predicate IsUpper(c: char) {
    'A' <= c <= 'Z'
  }

  function LowerChar(c: char): (r: char)
    ensures !IsUpper(r)
    ensures !IsUpper(c) ==> r == c
  {
    if IsUpper(c) then (c as int - 'A' as int + 'a' as int) as char else c
  }

  /** ASCII lower-casing; the length never changes, so indices carry over. */
  function Lower(s: string): (r: string)
    ensures |r| == |s|
    ensures forall i :: 0 <= i < |s| ==> r[i] == LowerChar(s[i])
  {
    seq(|s|, i requires 0 <= i < |s| => LowerChar(s[i]))
  }

  lemma LowerAppend(a: string, b: string)
    ensures Lower(a + b) == Lower(a) + Lower(b)
  {
  }

  lemma LowerSlice(s: string, i: int, j: int)
    requires 0 <= i <= j <= |s|
    ensures Lower(s[i..j]) == Lower(s)[i..j]
  {
  }

  // ---------------------------------------------------------------------
  // Substring search
  // ---------------------------------------------------------------------

  predicate IsPrefix(p: string, s: string) {
    |p| <= |s| && s[..|p|] == p
  }

  /** `needle` occurs in `hay` starting at index `i`. */
  predicate MatchAt(hay: string, needle: string, i: int) {
    0 <= i && i + |needle| <= |hay| && hay[i..i + |needle|] == needle
  }

  /** First occurrence of `needle` at or after `k` (`String.prototype.indexOf`). */
  function IndexOfFrom(hay: string, needle: string, k: nat): (r: Option<nat>)
    ensures r.Some? ==> k <= r.value && MatchAt(hay, needle, r.value)
    ensures r.Some? ==> forall j :: k <= j < r.value ==> !MatchAt(hay, needle, j)
    ensures r.None? ==> forall j :: k <= j ==> !MatchAt(hay, needle, j)
    decreases |hay| - k
  {
    if k + |needle| > |hay| then None
    else if hay[k..k + |needle|] == needle then Some(k)
    else IndexOfFrom(hay, needle, k + 1)
  }

  function IndexOf(hay: string, needle: string): (r: Option<nat>)
    ensures r.Some? ==> MatchAt(hay, needle, r.value)
    ensures r.Some? ==> forall j :: 0 <= j < r.value ==> !MatchAt(hay, needle, j)
    ensures r.None? <==> forall j :: !MatchAt(hay, needle, j)
  {
    IndexOfFrom(hay, needle, 0)
  }

  /** `hay.includes(needle)`. */
  predicate Contains(hay: string, needle: string) {
    IndexOf(hay, needle).Some?
  }

  lemma ContainsIff(hay: string, needle: string)
    ensures Contains(hay, needle) <==> exists j :: MatchAt(hay, needle, j)
  {
  }

  lemma ContainsEmpty(hay: string)
    ensures Contains(hay, "")
  {
    assert MatchAt(hay, "", 0);
  }

  /** A needle whose first character starts no long-enough suffix of `hay` does not occur in it. */
  lemma NotContainsByFirstChar(hay: string, needle: string)
    requires |needle| > 0
    requires forall j :: 0 <= j && j + |needle| <= |hay| ==> hay[j] != needle[0]
    ensures !Contains(hay, needle)
  {
    forall j | 0 <= j && j + |needle| <= |hay| ensures !MatchAt(hay, needle, j) {
      assert hay[j..j + |needle|][0] == hay[j];
    }
  }

  /** A needle found inside a part of a string is found in the whole string. */
  lemma ContainsWithin(hay: string, needle: string, i: int, j: int)
    requires 0 <= i <= j <= |hay|
    requires Contains(hay[i..j], needle)
    ensures Contains(hay, needle)
  {
    var k := IndexOf(hay[i..j], needle).value;
    assert hay[i..j][k..k + |needle|] == hay[i + k..i + k + |needle|];
    assert MatchAt(hay, needle, i + k);
  }

  // ---------------------------------------------------------------------
  // Joining and splitting
  // ---------------------------------------------------------------------

  /** `parts.join(sep)`. */
  function Join(parts: seq<string>, sep: string): string
    decreases |parts|
  {
    if |parts| == 0 then ""
    else if |parts| == 1 then parts[0]
    else parts[0] + sep + Join(parts[1..], sep)
  }

  /** Index of the first `c` in `s`. */
  function FirstIndex(s: string, c: char): (i: nat)
    requires c in s
    ensures i < |s| && s[i] == c && c !in s[..i]
  {
    if s[0] == c then 0
    else
      assert c in s[1..] by { var k :| 0 <= k < |s| && s[k] == c; assert s[1..][k - 1] == c; }
      var i := 1 + FirstIndex(s[1..], c);
      assert s[..i] == [s[0]] + s[1..][..i - 1];
      i
  }

  /** `s.split(sep)`: always at least one part, none containing the separator. */
  function Split(s: string, sep: char): (parts: seq<string>)
    ensures |parts| >= 1
    ensures forall k :: 0 <= k < |parts| ==> sep !in parts[k]
    ensures Join(parts, [sep]) == s
    decreases |s|
  {
    if sep !in s then [s]
    else
      var i := FirstIndex(s, sep);
      var rest := Split(s[i + 1..], sep);
      assert s == s[..i] + [sep] + s[i + 1..];
      [s[..i]] + rest
  }

  /** Splitting undoes joining, for parts free of the separator. */
  lemma {:induction false} SplitJoin(parts: seq<string>, sep: char)
    requires |parts| >= 1
    requires forall k :: 0 <= k < |parts| ==> sep !in parts[k]
    ensures Split(Join(parts, [sep]), sep) == parts
    decreases |parts|
  {
    if |parts| == 1 {
    } else {
      var s := Join(parts, [sep]);
      var tail := Join(parts[1..], [sep]);
      assert s == parts[0] + [sep] + tail;
      assert sep in s by { assert s[|parts[0]|] == sep; }
      var i := FirstIndex(s, sep);
      assert i == |parts[0]|;
      assert s[..i] == parts[0];
      assert s[i + 1..] == tail;
      SplitJoin(parts[1..], sep);
    }
  }

  // ---------------------------------------------------------------------
  // Trimming
  // ---------------------------------------------------------------------

  /** ECMAScript WhiteSpace and LineTerminator code points, the set `trim` strips. */
  predicate IsSpace(c: char) {
    || c == '\t' || c == '\n' || c == '\U{B}' || c == '\U{C}' || c == '\r'
    || c == ' ' || c == '\U{A0}' || c == '\U{1680}'
    || ('\U{2000}' <= c <= '\U{200A}')
    || c == '\U{2028}' || c == '\U{2029}' || c == '\U{202F}' || c == '\U{205F}'
    || c == '\U{3000}' || c == '\U{FEFF}'
  }

  /** No white space at either end. */
  predicate Trimmed(s: string) {
    |s| == 0 || (!IsSpace(s[0]) && !IsSpace(s[|s| - 1]))
  }

  /** Every character is white space (the empty string included). */
  predicate Blank(s: string) {
    forall i :: 0 <= i < |s| ==> IsSpace(s[i])
  }

  /** Length of the white-space run at the start of `s`. */
  function LeadingSpace(s: string): (n: nat)
    ensures n <= |s|
    ensures forall k :: 0 <= k < n ==> IsSpace(s[k])
    ensures n < |s| ==> !IsSpace(s[n])
  {
    if |s| > 0 && IsSpace(s[0]) then 1 + LeadingSpace(s[1..]) else 0
  }

  /** Where the white-space run at the end of `s` begins. */
  function ContentEnd(s: string): (n: nat)
    ensures n <= |s|
    ensures forall k :: n <= k < |s| ==> IsSpace(s[k])
    ensures 0 < n ==> !IsSpace(s[n - 1])
  {
    if |s| > 0 && IsSpace(s[|s| - 1]) then ContentEnd(s[..|s| - 1]) else |s|
  }

  /** `s.trim()`: `s` without the white space at either end. */
  function Trim(s: string): (r: string)
    ensures Trimmed(r)
    ensures Blank(s) ==> r == ""
    ensures Trimmed(s) ==> r == s
    ensures forall c :: c in r ==> c in s
  {
    var t := s[LeadingSpace(s)..];
    var r := t[..ContentEnd(t)];
    assert |r| > 0 ==> r[0] == s[LeadingSpace(s)];
    assert Trimmed(s) && |s| > 0 ==> LeadingSpace(s) == 0 && ContentEnd(t) == |t|;
    r
  }

  /** `trim` cuts white space off the two ends and nothing else: what it returns is a slice of `s`. */
  lemma TrimCutsEdges(s: string)
    ensures exists i, j :: 0 <= i <= j <= |s| && Trim(s) == s[i..j] && Blank(s[..i]) && Blank(s[j..])
  {
    var i := LeadingSpace(s);
    var t := s[i..];
    var j := i + ContentEnd(t);
    assert Trim(s) == s[i..j];
    assert Blank(s[..i]);
    assert Blank(s[j..]) by {
      forall k | 0 <= k < |s[j..]| ensures IsSpace(s[j..][k]) {
        assert s[j..][k] == t[ContentEnd(t) + k];
      }
    }
  }

  lemma {:induction false} LeadingSpacePadded(l: string, u: string)
    requires Blank(l) && |u| > 0 && !IsSpace(u[0])
    ensures LeadingSpace(l + u) == |l|
    decreases |l|
  {
    if |l| == 0 {
      assert l + u == u;
    } else {
      assert (l + u)[1..] == l[1..] + u;
      LeadingSpacePadded(l[1..], u);
    }
  }

  lemma {:induction false} ContentEndPadded(u: string, r: string)
    requires Blank(r) && |u| > 0 && !IsSpace(u[|u| - 1])
    ensures ContentEnd(u + r) == |u|
    decreases |r|
  {
    if |r| == 0 {
      assert u + r == u;
    } else {
      var ur := u + r;
      assert ur[..|ur| - 1] == u + r[..|r| - 1];
      ContentEndPadded(u, r[..|r| - 1]);
    }
  }

  /** White space around a trimmed, non-empty string is exactly what `trim` removes. */
  lemma TrimPadded(l: string, t: string, r: string)
    requires Blank(l) && Blank(r) && |t| > 0 && Trimmed(t)
    ensures Trim(l + t + r) == t
  {
    var s := l + t + r;
    assert s == l + (t + r);
    LeadingSpacePadded(l, t + r);
    assert s[|l|..] == t + r;
    ContentEndPadded(t, r);
  }

  /** A string trims to nothing exactly when it is all white space. */
  lemma TrimEmptyIffBlank(s: string)
    ensures |Trim(s)| == 0 <==> Blank(s)
  {
  }

  // ---------------------------------------------------------------------
  // Ordering (`localeCompare` as code-point lexicographic order)
  // ---------------------------------------------------------------------

  /** `a.localeCompare(b) <= 0`. */
  predicate StrLe(a: string, b: string)
    decreases |a|
  {
    |a| == 0 || (|b| > 0 && (a[0] < b[0] || (a[0] == b[0] && StrLe(a[1..], b[1..]))))
  }

  /** `a.localeCompare(b) < 0`. */
  predicate StrLt(a: string, b: string) {
    StrLe(a, b) && a != b
  }

  lemma {:induction false} StrLeTotal(a: string, b: string)
    ensures StrLe(a, b) || StrLe(b, a)
    decreases |a|
  {
    if |a| > 0 && |b| > 0 && a[0] == b[0] {
      StrLeTotal(a[1..], b[1..]);
    }
  }

  lemma {:induction false} StrLeTrans(a: string, b: string, c: string)
    requires StrLe(a, b) && StrLe(b, c)
    ensures StrLe(a, c)
    decreases |a|
  {
    if |a| > 0 && a[0] == b[0] && b[0] == c[0] {
      StrLeTrans(a[1..], b[1..], c[1..]);
    }
  }

  lemma {:induction false} StrLeAntisym(a: string, b: string)
    requires StrLe(a, b) && StrLe(b, a)
    ensures a == b
    decreases |a|
  {
    if |a| > 0 {
      StrLeAntisym(a[1..], b[1..]);
      assert a == [a[0]] + a[1..];
      assert b == [b[0]] + b[1..];
    }
  }

  // ---------------------------------------------------------------------
  // Decimal rendering (template-literal interpolation of a number)
  // ---------------------------------------------------------------------

  function DigitChar(d: nat): (c: char)
    requires d < 10
    ensures '0' <= c <= '9'
  {
    ('0' as int + d) as char
  }

  function DigitValue(c: char): nat {
    if '0' <= c <= '9' then c as int - '0' as int else 0
  }

  predicate IsDigit(c: char) {
    '0' <= c <= '9'
  }

  /** `${n}` for a non-negative integer. */
  function NatToString(n: nat): (s: string)
    ensures |s| >= 1
    ensures forall i :: 0 <= i < |s| ==> IsDigit(s[i])
    ensures n > 0 ==> s[0] != '0'
    ensures |s| == 1 || s[0] != '0'
  {
    if n < 10 then [DigitChar(n)] else NatToString(n / 10) + [DigitChar(n % 10)]
  }

  /** Reading decimal digits back. */
  function ParseDigits(s: string): nat {
    if |s| == 0 then 0 else ParseDigits(s[..|s| - 1]) * 10 + DigitValue(s[|s| - 1])
  }

  /** The rendered digits spell `n`. */
  lemma {:induction false} NatToStringRoundTrip(n: nat)
    ensures ParseDigits(NatToString(n)) == n
  {
    if n >= 10 {
      var s := NatToString(n);
      assert s[..|s| - 1] == NatToString(n / 10);
      NatToStringRoundTrip(n / 10);
    }
  }
}

=== FILE: types.dfy ===
/** The records of src/data/types.ts. */
module Types {

  import opened Wrappers

  /** `ComponentCategory`: the five categories a component can belong to. */
  datatype Category = Navigation | Forms | Feedback | DataDisplay | Layout {

    /** The category as it is written in the data and in the `cat` URL parameter. */
    function Name(): string {
      match this
      case Navigation => "Navigation"
      case Forms => "Forms"
      case Feedback => "Feedback"
      case DataDisplay => "Data Display"
      case Layout => "Layout"
    }
  }

  /** The five categories in the order the gallery lists them. */
  const Categories: seq<Category> := [Navigation, Forms, Feedback, DataDisplay, Layout]

  /** Reading a category name back; `None` for any other string ("All" included). */
  function CategoryNamed(s: string): (r: Option<Category>)
    ensures r.Some? ==> r.value.Name() == s
    ensures r.None? ==> forall c: Category :: c.Name() != s
  {
    if s == "Navigation" then Some(Navigation)
    else if s == "Forms" then Some(Forms)
    else if s == "Feedback" then Some(Feedback)
    else if s == "Data Display" then Some(DataDisplay)
    else if s == "Layout" then Some(Layout)
    else None
  }

  /** Distinct categories have distinct names, and "All" names none of them. */
  lemma NameRoundTrip(c: Category)
    ensures CategoryNamed(c.Name()) == Some(c)
    ensures c.Name() != "All" && c.Name() != ""
  {
  }

  datatype Complexity = Basic | Intermediate | Advanced

  datatype Status = New | Updated

  /** `ComponentDemo`; `status` and `description` are optional. */
  datatype Item = Item(
    id: string,
    name: string,
    category: Category,
    complexity: Complexity,
    tags: seq<string>,
    cover: string,
    status: Option<Status>,
    description: Option<string>)

  /** `KPI`; numbers are JavaScript doubles, modelled as reals, and `caption` is the `label` field (a Dafny keyword). */
  datatype Kpi = Kpi(id: string, caption: string, value: real, delta: Option<real>)

  datatype Project = Project(
    id: string,
    title: string,
    description: string,
    highlights: seq<string>,
    badges: seq<string>,
    hero: string,
    url: Option<string>,
    repo: Option<string>,
    components: seq<string>,
    kpis: seq<Kpi>)
}

=== FILE: wrappers.dfy ===
/** Optional values: the model's stand-in for TypeScript's `T | undefined`. */
module Wrappers {

  datatype Option<+T> = None | Some(value: T) {

    /** The value, or `default` when absent (TypeScript's `x ?? default`). */
    function GetOr(default: T): T {
      match this
      case Some(v) => v
      case None => default
    }
  }
}
